=== FILE: README.md ===
# Constellation core, modelled in Dafny

Constellation watches a Terra validator network. This project models the
deterministic core of the service as pure functions over immutable data,
with every network answer, clock reading and library parser passed in as an
input. The modelled parts are:

- **Observer intake.** A `new_block` notification is classified into
  broker messages: one per transaction, then at most one per begin-block
  event and one per end-block event. Each event type has its own rule for
  when it emits.
- **Validator registry.** It is built from the staking list. Its abstain
  and drift handlers update it. The refresh task joins the staking list
  with the consensus set by public key.
- **Shared network state.** This covers its constructor and its
  single-tag checkpoint envelope, plus the restart fallback.
- **Checkpoint round.** A snapshot is stamped and written, and the live
  state is stamped only when the write succeeds.
- **Producers of the shared state.** These are the address-book merge, the
  MaxMind geo fill and the Team Cymru BGP fill.
- **Peers-file report.** It has its own `id@ip:port` parser.
- **RPC crawler.** It filters private addresses and renders `id@host`
  strings.

Each concern is modelled once, against the crate `State` (module
`SharedState`). The older copies under `src/tasks/` add a sleep rule
(`Clock.SleepAfterRound`, `Clock.SleepWhenIdle`), which the
`LegacyIteration` members add on top of the shared transition. The smaller
schema of `src/state.rs` is its own module, `LegacyState`.

Behaviour of the code worth knowing, which the model keeps:

- **Dangling ASN entries.** The ASN-to-IP index can name an ASN that has no
  record, because the origin record is stored even when the details lookup
  fails (`BgpFill.OriginWithoutDetails`).
- **Short TXT records.** Malformed input is not always dropped: a TXT
  record with too few `|` fields makes the BGP task panic and end. This is
  modelled as a halted round (`BgpFill.Panics`).
- **Geo database.** A geo database that does not open ends the geo task
  (`GeoFill.GeoPass`).
- **Oracle votes are only logged.** The oracle actor logs each vote and
  computes nothing from it (crates/observer/src/actor/oracle.rs:16-29).
  Drift and abstain messages therefore arrive from outside.
- **Peers-file panic.** The peers-file report's `parse_triple` panics on a
  piece whose last `:` comes before its first `@`, and the program stops
  with the rows printed so far (`PeersFile.ReportAsWritten`; see
  Findings).
- **Private prefixes.** The private-address filter matches five literal
  prefixes. Only `172.16.` of the 172.16.0.0/12 block is excluded, so a
  Docker-bridge address such as `172.17.0.2` counts as open
  (`RpcCrawler.DockerBridgeCountsAsOpen`).
- **Schema mismatch.** The older tasks under `src/tasks/` use fields that
  `src/state.rs` does not declare (`new_ips_bgp`, `new_ips_geo`, `asn_ip`,
  `id_ip_addr`, `ip_ip_addr`, the geo tables). Their transitions are therefore stated over the crate
  `State`.

## Model

| member | source | states |
|---|---|---|
| Text.Split | crates/bgp/src/task.rs:99 | `split` on one character: at least one piece, no piece holds the separator, and joining the pieces gives the input back |
| Text.SplitJoin | crates/bgp/src/task.rs:107 | splitting a join of separator-free pieces recovers exactly those pieces |
| Text.SplitCount | crates/bgp/src/task.rs:99-100 | the number of pieces is the number of separators plus one, so an address has four parts exactly when it has three dots |
| Text.Trim | crates/bgp/src/task.rs:110-113 | `trim` keeps one block of the input and drops only whitespace around it, and the result starts and ends with non-whitespace |
| Text.TrimPadded | crates/bgp/src/task.rs:111-113 | trimming a field padded with one space on each side gives the field back |
| Text.ParseUsize | crates/observer/src/observer_intake.rs:286 | `parse::<usize>` accepts only an optional `+` and ASCII digits whose value is below 2^64; empty text, a lone `+` and any other character are errors |
| Text.ParseUsizeShowNat | crates/observer/src/observer_intake.rs:285-286 | the decimal rendering of an in-range count, after any number of leading zeros and with or without a leading `+`, parses to the count (so "007" gives 7 and "+0042" gives 42) |
| Text.ParseUsizeOverflow | crates/observer/src/observer_intake.rs:286 | a digit string worth 2^64 or more is rejected, whatever its leading zeros and with or without a `+` |
| Text.ParseDigits | crates/observer/src/observer_intake.rs:286 | a run of digits, with or without `+`, parses to its value exactly when that is below 2^64 |
| Text.LeadingZerosValue | crates/observer/src/observer_intake.rs:286 | leading zeros do not change the value of a run of digits |
| Text.StripPrefixOrSelf | src/tasks/rpc_crawler.rs:76-77 | with the prefix present, the prefix followed by the result is the input; otherwise the input is returned unchanged |
| Index.InsertIfAbsent | crates/geo/src/task.rs:59-72 | a vacant-entry insert adds the key, keeps every existing value, and stores the new value only for an absent key |
| Index.AddMember | crates/address_book/src/task.rs:30-37 | the clone-insert-put-back idiom adds the member to the key's set (creating it) and leaves every other key alone |
| Index.AddMemberGrows | crates/address_book/src/task.rs:30-45 | adding a member never removes one, under any key |
| Index.AddMemberPresent | crates/address_book/src/task.rs:30-45 | adding a member already listed under its key leaves the index equal to what it was |
| Index.IndexBy | crates/validator/src/actor/validator.rs:46-60 | inserting along a list gives exactly the list's keys, each holding the value of the last element with that key |
| Clock.NeverSavedValue | crates/shared/src/state.rs:100 | the never-saved sentinel 2019-10-12T07:20:50.52Z is 1570864850.52 s after the epoch |
| Clock.SleepAfterRound | src/tasks/address_book.rs:49-58 | the task sleeps exactly when period minus spent exceeds one second, and then wakes one period after the round began; otherwise the round took at least the period less one second, and the next round starts at once; it never aborts |
| Clock.SleepWhenIdle | src/tasks/geo_filler.rs:161-163 | with nothing pending the task sleeps the whole period, and a negative period ends the task |
| Versioned.Save | crates/shared/src/state.rs:134-141 | the saved document is the state unchanged under the single `StateVersion1` tag |
| Versioned.Restore | crates/shared/src/state.rs:123-133 | restoring succeeds exactly on a document with the `StateVersion1` tag, gives `StateVersion1` of its body, and reports a missing or unparseable file as an error |
| Versioned.RestoreAfterSave | crates/shared/src/state.rs:92-95 | restore after save gives back `StateVersion1` of the saved state |
| Versioned.RestoredWasSaved | crates/shared/src/state.rs:123-141 | any file that restores is exactly the save of what it restores to |
| Versioned.RestoreOr | src/main.rs:83-95 | the start-up fallback is the restored state when the file restores, and the fallback state otherwise |
| SharedState.New | crates/shared/src/state.rs:98-121 | a new state has every map and set empty and `last_saved` at the sentinel |
| SharedState.RestoreOrNew | src/main.rs:83-95 | the start-up fallback carried over to the crate `State`: the restored state for a `StateVersion1` document, a new state for anything else |
| SharedState.RestoreNewCheckpoint | crates/shared/src/state.rs:98-141 | a new state saved and restored is the new state |
| LegacyState.New | src/state.rs:41-50 | the earlier schema starts with nodes, both queues and both ASN tables empty and `last_saved` at the sentinel |
| LegacyState.RestoreOrNew | src/main.rs:83-95 | start-up with the earlier schema takes the restored state, or a new one when the file does not restore |
| LegacyState.CheckpointRoundTrip | src/state.rs:52-70 | the earlier schema's save restores to itself, and only a saved document restores |
| StateCheckpoint.CheckpointRound | crates/state_checkpoint/src/task.rs:9-21 | the written snapshot is the state at copy time with `last_saved` set to now; on success the live state differs from before only by that stamp; on failure it is unchanged |
| StateCheckpoint.CheckpointMatchesLive | crates/state_checkpoint/src/task.rs:9-17 | with no writer in between, restarting from the written file gives the live state after a successful round |
| StateCheckpoint.LegacyIteration | src/tasks/state_checkpoint.rs:8-31 | the older round over the earlier schema, then a sleep decided by the time from start to stamping, which when taken ends one period after the start |
| ObserverIntake.GetRequiredKv | crates/observer/src/observer_intake.rs:161-167 | a value is returned exactly when the key is present with a non-null value, and it is that value |
| ObserverIntake.NullValueIsAbsent | crates/observer/src/observer_intake.rs:161-167 | a key present with a null value reads as absent |
| ObserverIntake.ValidatorCoins | crates/observer/src/observer_intake.rs:172-209 | a reward or commission is emitted exactly when a validator attribute is present and the amount is absent or parses; an absent amount gives an empty coin list |
| ObserverIntake.MissedBlocks | crates/observer/src/observer_intake.rs:281-286 | the missed count is the parsed `missed_blocks` when it is a valid `usize`, 0 when it is absent or not one, and always below 2^64 |
| ObserverIntake.ProcessEvent | crates/observer/src/observer_intake.rs:168-414 | only the five emitting event types can emit. For rewards and proposer rewards, the proposer flag is set only for proposer rewards. Commission follows the same three-way rule. Liveness emits exactly when an address is present. An exchange-rate update emits exactly when denom and rate are present and the rate parses. Every message carries the height; reward, commission and liveness messages also carry the block half, and an exchange-rate message does not |
| ObserverIntake.EmitEvents | crates/observer/src/observer_intake.rs:134-147 | one half of a block yields at most one message per event, all at the header height; reward, commission and liveness messages are tagged with that half, and an exchange-rate message carries none |
| ObserverIntake.EmitEventsAppend | crates/observer/src/observer_intake.rs:134-147 | classifying two event lists in a row yields the first's messages followed by the second's |
| ObserverIntake.EmitEventsSingle | crates/observer/src/observer_intake.rs:139 | a single event contributes exactly what `process_event` issues for it |
| ObserverIntake.TxMessages | crates/observer/src/observer_intake.rs:129-133 | one transaction message per transaction, in list order |
| ObserverIntake.ProcessBlockEmit | crates/observer/src/observer_intake.rs:127-160 | always Ok. The output is the transaction messages in order, then the messages of the begin-block events in order, then those of the end-block events in order (each event's share being what `EmitEventsSingle` gives). All block-event messages carry the header height, no end-block message precedes a begin-block one, and the count is bounded by the inputs |
| ObserverIntake.ValidatorUpdatesEmitNothing | crates/observer/src/observer_intake.rs:148-159 | validator updates (and the chain id) never change what a block emits |
| ObserverIntake.BeginOnlyBlock | crates/observer/src/observer_intake.rs:134-147 | a block with no transactions and no end-block events emits exactly its begin-block messages |
| ObserverIntake.LivenessMissedRoundTrip | crates/observer/src/observer_intake.rs:280-292 | a liveness event with an address and a rendered in-range count, with any number of leading zeros, reports that count |
| ValidatorActor.CreateFromValidatorList | crates/validator/src/actor/validator.rs:39-65 | the key set is the set of operator addresses, and each record is a fresh sighting of the last validator with that address (zero abstains and drifts, first and last block the height). Each moniker maps to the operator of the last validator using it |
| ValidatorActor.Create | crates/validator/src/actor/validator.rs:30-38 | a failed staking fetch is the error; otherwise the registry is the one built from the fetched list at its height, whose keys are the fetched operator addresses |
| ValidatorActor.HandleAbstain | crates/validator/src/actor/validator.rs:76-102 | a known operator's abstains go up by one and its last update moves to the message height; drifts, first sighting and every other record stay; an unknown operator changes nothing; keys never change |
| ValidatorActor.HandleDrift | crates/validator/src/actor/validator.rs:121-149 | a known operator's drifts go up by one and its last update moves to the message height; everything else stays; an unknown operator changes nothing |
| ValidatorActor.CreateIsConsistent | crates/validator/src/actor/validator.rs:46-60 | every record sits under its own operator address and every moniker names a known operator |
| ValidatorActor.HandlersKeepConsistent | crates/validator/src/actor/validator.rs:82-101 | both handlers preserve that consistency |
| ValidatorActor.AbstainsAreCounted | crates/validator/src/actor/validator.rs:82-87 | after a run of abstain messages a known record's abstains grew by exactly the number naming it, and its drifts and first sighting are untouched |
| ValidatorRefresh.ConsensusIndex | crates/validator/src/task.rs:14-23 | the consensus map is rebuilt from nothing, keyed by public key, each key holding the last member with it |
| ValidatorRefresh.RefreshRound | crates/validator/src/task.rs:14-41 | with no client or no staking list, nothing is sent. Otherwise one message goes out per staking validator, in order, at the staking height, with its operator address. Its consensus record is absent exactly when the consensus fetch failed or no member has its consensus key, and is otherwise the last member with that key |
| ValidatorRefresh.ConsensusFailureStillAnnounces | crates/validator/src/task.rs:25-38 | a failed consensus fetch still announces every staking validator, none linked |
| AddressBook.Register | crates/address_book/src/task.rs:23-28 | a vacant key gets the entry and is queued, its IP going onto both IP queues; a known key changes nothing; the indices are untouched |
| AddressBook.IndexAddr | crates/address_book/src/task.rs:30-45 | the address joins the sets under its id and its IP, every other set is kept |
| AddressBook.MergeEntry | crates/address_book/src/task.rs:15-46 | one entry is registered if vacant and then indexed by id and IP, with only the six book fields written |
| AddressBook.MergeBook | crates/address_book/src/task.rs:14-46 | the node keys become the old keys plus the book's, no node record is replaced, the queues only grow, and only the six book fields change |
| AddressBook.MergedNodeIsFirstEntry | crates/address_book/src/task.rs:23-24 | a node the merge adds holds the first entry of the book with its key |
| AddressBook.MergeQueuesNewNodes | crates/address_book/src/task.rs:23-28 | the new-node queue gains exactly the added keys, and both IP queues gain exactly the added nodes' IPs |
| AddressBook.MergeIndexesAddresses | crates/address_book/src/task.rs:30-45 | each index key ends with its old members plus exactly the book's addresses under it |
| AddressBook.MergeAbsorbs | crates/address_book/src/task.rs:15-46 | after the merge every entry's key is registered and its address is indexed under its id and IP |
| AddressBook.AbsorbedBookChangesNothing | crates/address_book/src/task.rs:15-46 | merging a book already absorbed leaves the state equal to what it was |
| AddressBook.MergeIdempotent | crates/address_book/src/task.rs:15-46 | merging the same book twice equals merging it once |
| AddressBook.MergeKeepsConsistent | crates/address_book/src/task.rs:23-45 | if every node is indexed under its address's id and IP before the merge, it still is after |
| AddressBook.AddressBookRound | crates/address_book/src/task.rs:12-51 | a failed fetch leaves the state unchanged; a fetched book is merged (so no node is removed or replaced), absorbed, and only the book fields are written |
| AddressBook.LegacyIteration | src/tasks/address_book.rs:15-58 | the older iteration's state is exactly the round's (a failed fetch changes nothing, a fetched book is merged), then the sleep rule on the time spent, which when taken ends one period after the start |
| GeoFill.EnName | crates/geo/src/task.rs:55-58 | a section without names has no name; with names it is the English one, or `-none-` when there is none |
| GeoFill.RecordCity | crates/geo/src/task.rs:54-80 | the city record is inserted only under a new id, the IP's city becomes the id, and the IP joins the id's set; only the three city tables change |
| GeoFill.RecordCountry | crates/geo/src/task.rs:81-105 | as for the city, for the country tables |
| GeoFill.RecordContinent | crates/geo/src/task.rs:106-130 | as for the city, for the continent tables |
| GeoFill.FillIp | crates/geo/src/task.rs:31-141 | a parse or database failure changes nothing. An answer takes the IP off the geo queue and sets the forward index for each present section, with a missing id counting as 0. An absent section leaves its tables alone. No record is replaced, and only geo fields change |
| GeoFill.FillAll | crates/geo/src/task.rs:30-142 | a run of lookups writes only the geo fields |
| GeoFill.FillIpPending | crates/geo/src/task.rs:19-26 | an IP leaves the pending set exactly when its lookup answers, and nothing joins it |
| GeoFill.FillAllPending | crates/geo/src/task.rs:17-142 | after a run, an IP is pending exactly when it was and was not answered in the run |
| GeoFill.GeoRound | crates/geo/src/task.rs:17-142 | over the pending IPs, the pending set afterwards is the old one less the answered IPs |
| GeoFill.RecordCityKeepsConsistent | crates/geo/src/task.rs:54-80 | the city step keeps every indexed IP pointing at a stored record and listed under its id |
| GeoFill.RecordCountryKeepsConsistent | crates/geo/src/task.rs:81-105 | the same for the country step |
| GeoFill.RecordContinentKeepsConsistent | crates/geo/src/task.rs:106-130 | the same for the continent step |
| GeoFill.RecordSectionsKeepsConsistent | crates/geo/src/task.rs:54-130 | all three section steps together keep the geo indices consistent |
| GeoFill.FillIpKeepsConsistent | crates/geo/src/task.rs:31-141 | one lookup keeps the geo indices consistent |
| GeoFill.FillAllKeepsConsistent | crates/geo/src/task.rs:30-142 | a run of lookups keeps the geo indices consistent |
| GeoFill.GeoPass | crates/geo/src/task.rs:14-146 | the pass fails exactly when the database does not open; otherwise it is the round, and an empty pending list changes nothing |
| GeoFill.LegacyIteration | src/tasks/geo_filler.rs:11-164 | the older pass fails exactly when the database does not open; otherwise its state is the crate pass's, writing only geo fields and dequeuing the answered IPs. With nothing pending the state is unchanged and the whole period is slept; otherwise the sleep rule follows |
| BgpFill.Reverse | crates/bgp/src/task.rs:101-104 | the reversal has the same length and element i is the input's element counted from the end |
| BgpFill.OriginQuery | crates/bgp/src/task.rs:99-104 | a query name exists exactly when the IP has four dot-separated parts (`BadIp` otherwise) |
| BgpFill.OriginQueryReversesOctets | crates/bgp/src/task.rs:99-104 | the query name is the reversed parts joined by dots under the origin zone, and reversing them again gives the IP back |
| BgpFill.ParseOrigin | crates/bgp/src/task.rs:107-115 | a record parses exactly when it has at least four fields. The ASN is a single word, and range, country and network hold no separator |
| BgpFill.ParseDetails | crates/bgp/src/task.rs:132-140 | a record parses exactly when it has at least five fields, and no parsed field holds a separator |
| BgpFill.TrimKeepsOut | crates/bgp/src/task.rs:110-113 | trimming never introduces a character |
| BgpFill.PaddedFields | crates/bgp/src/task.rs:107-113 | a record served as space-padded fields splits into those fields and each trims back to its field |
| BgpFill.ParseOriginServed | crates/bgp/src/task.rs:107-115 | a served origin record parses to its ASN, range, country and network |
| BgpFill.ParseDetailsServed | crates/bgp/src/task.rs:129-140 | a served details record parses to its fields 0, 1, 2 and 4, field 3 being skipped |
| BgpFill.GrabAsnForIp | crates/bgp/src/task.rs:94-125 | a bad IP or a DNS error fails, no TXT record is no answer, a short record is the panic, and otherwise the answer is the parsed record |
| BgpFill.GrabAsnDetails | crates/bgp/src/task.rs:126-147 | the same, on the details query `as<asn>.asn.cymru.com.` with at least five fields |
| BgpFill.RecordOrigin | crates/bgp/src/task.rs:57-73 | the IP's origin record is stored, the IP leaves the BGP queue and joins its ASN's set, keeping other members |
| BgpFill.FetchDetails | crates/bgp/src/task.rs:36-56 | details are fetched only for an ASN the round's copy lacks; an answer is stored in both, a short record halts; while the copy mirrors the table no stored ASN record is replaced |
| BgpFill.FillIp | crates/bgp/src/task.rs:31-82 | a failed or empty lookup changes nothing, and a short record halts with nothing written. An answer stores the origin record, takes the IP off the queue and lists it under its ASN, whether or not details arrived. A halt always comes from a short record |
| BgpFill.FillAll | crates/bgp/src/task.rs:30-83 | a run writes only the BGP fields, and a halted run does nothing more |
| BgpFill.FillIpPending | crates/bgp/src/task.rs:19-24 | an IP leaves the pending set exactly when its origin lookup answers |
| BgpFill.FillAllPending | crates/bgp/src/task.rs:15-83 | after an unhalted run an IP is pending exactly when it was and was not answered; a halted run contains a panicking lookup |
| BgpFill.BgpRound | crates/bgp/src/task.rs:15-87 | the round starts from a copy of the ASN table and keeps every existing ASN record. Unhalted, the pending set loses exactly the answered IPs; halted, some pending IP's lookup panics |
| BgpFill.FillIpKeepsConsistent | crates/bgp/src/task.rs:57-73 | every IP with an origin record stays listed under its record's ASN |
| BgpFill.FillAllKeepsConsistent | crates/bgp/src/task.rs:30-83 | the same over a run |
| BgpFill.OriginWithoutDetails | crates/bgp/src/task.rs:36-73 | when the details lookup fails, the ASN is indexed with the IP but has no ASN record |
| BgpFill.LegacyIteration | src/tasks/bgp_filler.rs:13-99 | the older pass is the crate round: only BGP fields are written and every existing ASN record is kept. With nothing pending the state is unchanged and the whole period is slept; a halt ends the task, and an unhalted round sleeps by the rule |
| PeersFile.ParseTripleAsWritten | crates/geo/examples/parse_peers_file.rs:71-83 | no triple exactly when `@` or `:` is missing; a panic exactly when both are present but no `@` precedes a `:` |
| PeersFile.ParseTripleAsWrittenPanics | crates/geo/examples/parse_peers_file.rs:72-77 | the input `a:1@b` makes it panic |
| PeersFile.ParseTriple | crates/geo/examples/parse_peers_file.rs:71-83 | a triple exactly when some `@` precedes some `:`. Then the id has no `@`, the port has no `:`, and id@ip:port rebuilds the input |
| PeersFile.ParseTripleAgrees | crates/geo/examples/parse_peers_file.rs:71-83 | wherever `parse_triple` as written does not panic the two parsers agree, and where it panics the corrected one gives none |
| PeersFile.ParseTripleInverse | crates/geo/examples/parse_peers_file.rs:74-78 | a rendered triple whose id has no `@` and whose port has no `:` parses back to itself |
| PeersFile.RowOf | crates/geo/examples/parse_peers_file.rs:29-46 | a piece yields a row exactly when it parses, its IP is not bracketed, and the lookup finds a country |
| PeersFile.KeepMembership | crates/geo/examples/parse_peers_file.rs:28-29 | a value is kept exactly when some element maps to it |
| PeersFile.PieceRowsMembership | crates/geo/examples/parse_peers_file.rs:28-46 | a row is reported exactly for a reported piece |
| PeersFile.PieceRowsAppend | crates/geo/examples/parse_peers_file.rs:28-46 | the rows of two piece lists in a row are the first's rows then the second's |
| PeersFile.LineRows | crates/geo/examples/parse_peers_file.rs:26-28 | a heading line yields no rows; other lines yield at most one row per comma-separated piece |
| PeersFile.LineOfTriples | crates/geo/examples/parse_peers_file.rs:26-29 | a line made of comma-free triples reports the rows of those triples, in order |
| PeersFile.Report | crates/geo/examples/parse_peers_file.rs:23 | the header line comes first |
| PeersFile.PieceRowsAsWritten | crates/geo/examples/parse_peers_file.rs:28-29 | the program panics on a line exactly when one of its pieces makes `parse_triple` panic |
| PeersFile.PieceRowsAsWrittenAgrees | crates/geo/examples/parse_peers_file.rs:28-46 | with no panicking piece, a line prints the rows of the corrected parser |
| PeersFile.PieceRowsAsWrittenStops | crates/geo/examples/parse_peers_file.rs:28-46 | at the first panicking piece the program stops, having printed exactly the rows of the pieces before it |
| PeersFile.LineRowsAsWritten | crates/geo/examples/parse_peers_file.rs:26-28 | a heading line prints nothing and never panics; a line that does not panic prints its corrected rows |
| PeersFile.ConcatUntil | crates/geo/examples/parse_peers_file.rs:24-61 | the run panics exactly when some element's output panics |
| PeersFile.ConcatUntilAgrees | crates/geo/examples/parse_peers_file.rs:24-61 | without a panic, the run prints the joined outputs in order |
| PeersFile.FileRowsAsWritten | crates/geo/examples/parse_peers_file.rs:24-61 | the file panics exactly when one of its lines does |
| PeersFile.FileRowsAsWrittenAgrees | crates/geo/examples/parse_peers_file.rs:24-61 | a file without a panicking piece prints the corrected rows |
| PeersFile.ReportAsWritten | crates/geo/examples/parse_peers_file.rs:23-61 | the program's output starts with the header, and it panics exactly when some line does |
| PeersFile.ReportAsWrittenAgrees | crates/geo/examples/parse_peers_file.rs:23-61 | on a file where the program's parser never panics, the output is the corrected report and no panic |
| PeersFile.ConcatAppend | crates/geo/examples/parse_peers_file.rs:24-61 | concatenated outputs follow concatenated inputs |
| PeersFile.FileRowsAppend | crates/geo/examples/parse_peers_file.rs:24-61 | the rows of two files read in a row are the first's rows then the second's |
| RpcCrawler.PeerString | src/tasks/rpc_crawler.rs:72-78 | the rendering starts with `id@`, and what follows is the listen address with a leading `tcp://` removed when present |
| RpcCrawler.OpenRpc | src/tasks/rpc_crawler.rs:41-58 | no longer than the peer list |
| RpcCrawler.OpenPeers | src/tasks/rpc_crawler.rs:59-82 | no longer than the peer list |
| RpcCrawler.OpenRpcMembership | src/tasks/rpc_crawler.rs:41-58 | an address is listed exactly when some peer advertises it and it has none of the five private prefixes |
| RpcCrawler.OpenPeersMembership | src/tasks/rpc_crawler.rs:59-82 | a rendering is listed exactly when some peer listening outside the private prefixes renders to it |
| RpcCrawler.OpenRpcAppend | src/tasks/rpc_crawler.rs:41-58 | the RPC list follows peer order: the list for two peer lists in a row is the first's then the second's |
| RpcCrawler.OpenPeersAppend | src/tasks/rpc_crawler.rs:59-82 | the same for the listen-address list |
| RpcCrawler.PeerStringParses | src/tasks/rpc_crawler.rs:72-78 | a peer on `tcp://ip:port` renders as `id@ip:port`, which the peers-file parser reads back as that triple |
| RpcCrawler.DockerBridgeCountsAsOpen | src/tasks/rpc_crawler.rs:46-50 | `tcp://172.17.0.2:26656` is not private under the five literal prefixes |
| RpcCrawler.RunTask | src/tasks/rpc_crawler.rs:19-93 | no lists when no client was built or `net_info` failed; otherwise exactly the open RPC list and the open peer list of the fetched peers, each no longer than the peer list, with no private RPC address |

## Left out

- The websocket connect, subscribe and read loop, the Ping/Pong reply and the retry delay of the observer intake: network I/O in an infinite loop.
- Broker delivery, actor subscription, `Arc<Mutex<_>>` locking and task spawning: the messages a function returns stand for those it issues. The address-book merge and the checkpoint copy each hold the lock once and are one atomic transition.
- GeoFill.GeoRound: a geo round is one transition over the state as it was at the snapshot. The code locks once for the snapshot (crates/geo/src/task.rs:20) and again for each IP (:53), with MaxMind work in between, so an address-book merge can run between those blocks; the model does not show such interleavings.
- BgpFill.BgpRound: the same for a BGP round, which locks for the snapshot (crates/bgp/src/task.rs:19) and again around each IP's writes (:40, :58), with DNS awaits in between. An address-book merge between those blocks can re-queue an IP on `new_ips_bgp` or add nodes, which the model's final pending set does not show.
- Logging, which has no effect on state.
- Library code is passed in rather than modelled: `event.attribute_map()` (an event's attributes are the input map `BlockEvent.attributes`, so how repeated keys are merged is not modelled), `Coin::parse_coins` and `Decimal::from_str` (as `Decoders`), `NodeIDIPPort::to_string` (the `render` parameter), IP parsing plus the MaxMind lookup (one `Lookup` value per IP), DNS TXT resolution (the `resolve` parameter) and the LCD/RPC clients (their results).
- JSON serialization and file I/O of checkpoints: a checkpoint file is its tag and its state, or missing, or unparseable.
- Text.ParseUsize: `usize` is taken as 64 bits; on a 32-bit target `parse::<usize>` would reject values from 2^32.
- Wall-clock reads, timer intervals and actual sleeping: instants and durations are integers, and the crate tasks' `interval.tick()` pacing is not modelled.
- The oracle actor's transaction handler: it only logs the vote and prevote messages it sees.
- HTTP query handlers and all Discord code: UI and network wrappers.
- The BGP resolver construction failing before the loop starts: it ends the task before any round.
- The peers-file report's command-line handling, database open and per-line read errors: each ends the program before or between lines.
- GeoFill.FillIp: every record written in one round carries one `stamp`, where the code reads the clock at each insert.
- BgpFill.FillIp: every record written in one round carries one `stamp`, where the code reads the clock at each parse.
- BgpFill.FillAll: the DNS and MaxMind answers are fixed functions of the query within a round, so a repeated query gets the same answer.
- ValidatorActor.HandleAbstain: the abstain count is unbounded, so `u64` overflow is not modelled (it would need 2^64 messages).
- ValidatorActor.HandleDrift: the drift count is unbounded, for the same reason.
- RpcCrawler.RunTask: the lists are only logged by the code, and the model returns them instead.
- PeersFile.RowOf: the rows are stated with the corrected parser, which gives no row for a piece such as `a:1@b`, where the program panics and stops. The stop is modelled separately by `PeersFile.ReportAsWritten`, and the two agree on files with no such piece (`PeersFile.ReportAsWrittenAgrees`).
- PeersFile.PieceRowsMembership: also stated with the corrected parser; on a line with a panicking piece the program prints only the rows before it (`PeersFile.PieceRowsAsWrittenStops`).
- The order in which a `HashSet` yields pending IPs is an input (`order`), constrained only to list each pending IP.

## Findings

| source | as written | input that shows it | evidently intended | confidence | as-written member | corrected member |
|---|---|---|---|---|---|---|
| crates/geo/examples/parse_peers_file.rs:71-83 | the id runs to the first `@`, the IP is sliced from after it to the last `:`, and the slice start can pass its end | `a:1@b` (the last `:` precedes the first `@`), which panics on the slice `[4..1]` | no triple for such a piece, as for one lacking `@` or `:` | not executed | PeersFile.ParseTripleAsWritten, PeersFile.ParseTripleAsWrittenPanics, PeersFile.ReportAsWritten | PeersFile.ParseTriple, PeersFile.ParseTripleInverse |

=== FILE: address_book.dfy ===
/** The address-book producer: each fetched book is merged into the shared
    state under the lock. A node is registered only the first time its key
    is seen, and then queued for enrichment; every entry, new or not, is
    added to the by-id and by-IP reverse indices. The node key is the
    library's rendering of the node address, passed in as `render`. */
module AddressBook {
  import opened Wrappers
  import Index
  import Clock
  import opened SharedState

  datatype FetchError = FetchError

  /** Only the six fields the merge writes differ between `s` and `r`. */
  predicate OnlyBookFieldsDiffer(s: State, r: State) {
    r.(nodes := s.nodes, ipIpAddr := s.ipIpAddr, idIpAddr := s.idIpAddr,
       newNodes := s.newNodes, newIpsBgp := s.newIpsBgp, newIpsGeo := s.newIpsGeo) == s
  }

  function IdOf(a: NodeIdIpPort): string { a.id }

  function IpOf(a: NodeIdIpPort): string { a.ip }

  /** The keys `key` gives the addresses of `book`'s entries. */
  function KeysOf(book: seq<NodeAddr>, key: NodeIdIpPort -> string): set<string>
  {
    set e | e in book :: key(e.addr)
  }

  /** The addresses of `book` whose key is `k`. */
  function Listed(book: seq<NodeAddr>, key: NodeIdIpPort -> string, k: string): set<NodeIdIpPort>
  {
    set e | e in book && key(e.addr) == k :: e.addr
  }

  /** `book[i]` is the first entry of `book` whose address renders as `k`. */
  ghost predicate FirstWithKey(book: seq<NodeAddr>, render: NodeIdIpPort -> string, i: int, k: string) {
    0 <= i < |book| && render(book[i].addr) == k && forall j :: 0 <= j < i ==> render(book[j].addr) != k
  }

  /** The IPs of the nodes `r` has and `s` had not. */
  function AddedIps(s: State, r: State): set<string>
  {
    set k | k in r.nodes && k !in s.nodes :: r.nodes[k].addr.ip
  }

  /** The `Entry::Vacant` arm: a key not seen before gets the entry as its
      record and is queued as a new node, its IP on both enrichment queues;
      a known key changes nothing. */
  function Register(s: State, e: NodeAddr, key: string): (r: State)
    ensures OnlyBookFieldsDiffer(s, r)
    ensures r.idIpAddr == s.idIpAddr && r.ipIpAddr == s.ipIpAddr
    ensures r.nodes.Keys == s.nodes.Keys + {key}
    ensures forall k :: k in s.nodes ==> r.nodes[k] == s.nodes[k]
    ensures key !in s.nodes ==> r.nodes[key] == e
    ensures r.newNodes == s.newNodes + (r.nodes.Keys - s.nodes.Keys)
    ensures r.newIpsBgp == s.newIpsBgp + (if key in s.nodes then {} else {e.addr.ip})
    ensures r.newIpsGeo == s.newIpsGeo + (if key in s.nodes then {} else {e.addr.ip})
  {
    if key in s.nodes then s
    else s.(nodes := s.nodes[key := e],
            newNodes := s.newNodes + {key},
            newIpsBgp := s.newIpsBgp + {e.addr.ip},
            newIpsGeo := s.newIpsGeo + {e.addr.ip})
  }

  /** The two reverse-index updates done for every entry. */
  function IndexAddr(s: State, a: NodeIdIpPort): (r: State)
    ensures OnlyBookFieldsDiffer(s, r)
    ensures r.nodes == s.nodes && r.newNodes == s.newNodes
    ensures r.newIpsBgp == s.newIpsBgp && r.newIpsGeo == s.newIpsGeo
    ensures r.idIpAddr.Keys == s.idIpAddr.Keys + {a.id}
    ensures forall id ::
      Index.Members(r.idIpAddr, id) == Index.Members(s.idIpAddr, id) + (if id == a.id then {a} else {})
    ensures r.ipIpAddr.Keys == s.ipIpAddr.Keys + {a.ip}
    ensures forall ip ::
      Index.Members(r.ipIpAddr, ip) == Index.Members(s.ipIpAddr, ip) + (if ip == a.ip then {a} else {})
  {
    s.(idIpAddr := Index.AddMember(s.idIpAddr, a.id, a),
       ipIpAddr := Index.AddMember(s.ipIpAddr, a.ip, a))
  }

  /** One entry of the book, as the body of the `for_each`. */
  function MergeEntry(s: State, e: NodeAddr, render: NodeIdIpPort -> string): (r: State)
    ensures OnlyBookFieldsDiffer(s, r)
    ensures r.nodes.Keys == s.nodes.Keys + {render(e.addr)}
    ensures forall k :: k in s.nodes ==> r.nodes[k] == s.nodes[k]
    ensures render(e.addr) !in s.nodes ==> r.nodes[render(e.addr)] == e
    ensures r.newNodes == s.newNodes + (r.nodes.Keys - s.nodes.Keys)
    ensures r.newIpsBgp == s.newIpsBgp + (if render(e.addr) in s.nodes then {} else {e.addr.ip})
    ensures r.newIpsGeo == s.newIpsGeo + (if render(e.addr) in s.nodes then {} else {e.addr.ip})
    ensures r.idIpAddr.Keys == s.idIpAddr.Keys + {e.addr.id}
    ensures forall id ::
      Index.Members(r.idIpAddr, id) == Index.Members(s.idIpAddr, id) + (if id == e.addr.id then {e.addr} else {})
    ensures r.ipIpAddr.Keys == s.ipIpAddr.Keys + {e.addr.ip}
    ensures forall ip ::
      Index.Members(r.ipIpAddr, ip) == Index.Members(s.ipIpAddr, ip) + (if ip == e.addr.ip then {e.addr} else {})
  {
    IndexAddr(Register(s, e, render(e.addr)), e.addr)
  }

  /** The whole book, entry by entry in book order. Nothing is ever removed:
      existing node records stay as they were and only the six fields the
      merge owns change. */
  function MergeBook(s: State, book: seq<NodeAddr>, render: NodeIdIpPort -> string): (r: State)
    ensures OnlyBookFieldsDiffer(s, r)
    ensures r.nodes.Keys == s.nodes.Keys + KeysOf(book, render)
    ensures forall k :: k in s.nodes ==> r.nodes[k] == s.nodes[k]
    ensures s.newNodes <= r.newNodes && s.newIpsBgp <= r.newIpsBgp && s.newIpsGeo <= r.newIpsGeo
  {
    if |book| == 0 then s
    else
      var front := book[..|book| - 1];
      assert book == front + [book[|book| - 1]];
      MergeEntry(MergeBook(s, front, render), book[|book| - 1], render)
  }

  /** A node newly registered by the merge holds the FIRST entry of the book
      with its key: a later entry with the same key never replaces it. */
  lemma {:induction false} MergedNodeIsFirstEntry(s: State, book: seq<NodeAddr>, render: NodeIdIpPort -> string, k: string)
    requires k in MergeBook(s, book, render).nodes && k !in s.nodes
    ensures exists i :: FirstWithKey(book, render, i, k) && book[i] == MergeBook(s, book, render).nodes[k]
  {
    if |book| == 0 {
      assert false;
    } else {
      var front := book[..|book| - 1];
      var t := MergeBook(s, front, render);
      if k in t.nodes {
        MergedNodeIsFirstEntry(s, front, render, k);
      }
      FirstEntryStep(book, front, t.nodes, MergeBook(s, book, render).nodes, k, render);
    }
  }

  lemma FirstEntryStep(book: seq<NodeAddr>, front: seq<NodeAddr>, tNodes: map<string, NodeAddr>,
                       rNodes: map<string, NodeAddr>, k: string, render: NodeIdIpPort -> string)
    requires |book| > 0 && front == book[..|book| - 1]
    requires KeysOf(front, render) <= tNodes.Keys
    requires rNodes.Keys == tNodes.Keys + {render(book[|book| - 1].addr)}
    requires forall x :: x in tNodes ==> rNodes[x] == tNodes[x]
    requires render(book[|book| - 1].addr) !in tNodes ==> rNodes[render(book[|book| - 1].addr)] == book[|book| - 1]
    requires k in rNodes
    requires k in tNodes ==> exists i :: FirstWithKey(front, render, i, k) && front[i] == tNodes[k]
    ensures exists i :: FirstWithKey(book, render, i, k) && book[i] == rNodes[k]
  {
    if k in tNodes {
      var i :| FirstWithKey(front, render, i, k) && front[i] == tNodes[k];
      assert FirstWithKey(book, render, i, k);
    } else {
      forall j | 0 <= j < |book| - 1
        ensures render(book[j].addr) != k
      {
        assert book[j] in front;
      }
      assert FirstWithKey(book, render, |book| - 1, k);
    }
  }

  /** The work queues gain exactly the newly registered nodes' keys (new
      nodes) and IPs (both enrichment queues); an already-known node adds
      nothing to them. */
  lemma {:induction false} MergeQueuesNewNodes(s: State, book: seq<NodeAddr>, render: NodeIdIpPort -> string)
    ensures var r := MergeBook(s, book, render);
      && r.newNodes == s.newNodes + (r.nodes.Keys - s.nodes.Keys)
      && r.newIpsBgp == s.newIpsBgp + AddedIps(s, r)
      && r.newIpsGeo == s.newIpsGeo + AddedIps(s, r)
  {
    if |book| > 0 {
      var front := book[..|book| - 1];
      var e := book[|book| - 1];
      var t := MergeBook(s, front, render);
      MergeQueuesNewNodes(s, front, render);
      QueuesStep(s, t, MergeBook(s, book, render), render(e.addr), e.addr.ip);
    }
  }

  lemma QueuesStep(s: State, t: State, r: State, key: string, ip: string)
    requires t.nodes.Keys >= s.nodes.Keys
    requires r.nodes.Keys == t.nodes.Keys + {key}
    requires forall k :: k in t.nodes ==> r.nodes[k] == t.nodes[k]
    requires key !in t.nodes ==> r.nodes[key].addr.ip == ip
    requires t.newNodes == s.newNodes + (t.nodes.Keys - s.nodes.Keys)
    requires t.newIpsBgp == s.newIpsBgp + AddedIps(s, t)
    requires t.newIpsGeo == s.newIpsGeo + AddedIps(s, t)
    requires r.newNodes == t.newNodes + (r.nodes.Keys - t.nodes.Keys)
    requires r.newIpsBgp == t.newIpsBgp + (if key in t.nodes then {} else {ip})
    requires r.newIpsGeo == t.newIpsGeo + (if key in t.nodes then {} else {ip})
    ensures r.newNodes == s.newNodes + (r.nodes.Keys - s.nodes.Keys)
    ensures r.newIpsBgp == s.newIpsBgp + AddedIps(s, r)
    ensures r.newIpsGeo == s.newIpsGeo + AddedIps(s, r)
  {
    assert AddedIps(s, r) == AddedIps(s, t) + (if key in t.nodes then {} else {ip});
  }

  /** After the merge every address of the book is listed under its id and
      under its IP, next to everything listed there before, and nothing
      else is. */
  lemma {:induction false} MergeIndexesAddresses(s: State, book: seq<NodeAddr>, render: NodeIdIpPort -> string)
    ensures var r := MergeBook(s, book, render);
      && r.idIpAddr.Keys == s.idIpAddr.Keys + KeysOf(book, IdOf)
      && r.ipIpAddr.Keys == s.ipIpAddr.Keys + KeysOf(book, IpOf)
      && (forall id :: Index.Members(r.idIpAddr, id) == Index.Members(s.idIpAddr, id) + Listed(book, IdOf, id))
      && (forall ip :: Index.Members(r.ipIpAddr, ip) == Index.Members(s.ipIpAddr, ip) + Listed(book, IpOf, ip))
  {
    if |book| > 0 {
      var front := book[..|book| - 1];
      var t := MergeBook(s, front, render);
      var r := MergeBook(s, book, render);
      MergeIndexesAddresses(s, front, render);
      IndexStep(s.idIpAddr, t.idIpAddr, r.idIpAddr, book, IdOf);
      IndexStep(s.ipIpAddr, t.ipIpAddr, r.ipIpAddr, book, IpOf);
    }
  }

  lemma IndexStep(sIdx: map<string, set<NodeIdIpPort>>, tIdx: map<string, set<NodeIdIpPort>>,
                  rIdx: map<string, set<NodeIdIpPort>>, book: seq<NodeAddr>, key: NodeIdIpPort -> string)
    requires |book| > 0
    requires tIdx.Keys == sIdx.Keys + KeysOf(book[..|book| - 1], key)
    requires forall k :: Index.Members(tIdx, k) == Index.Members(sIdx, k) + Listed(book[..|book| - 1], key, k)
    requires rIdx.Keys == tIdx.Keys + {key(book[|book| - 1].addr)}
    requires forall k ::
      Index.Members(rIdx, k) == Index.Members(tIdx, k) + (if k == key(book[|book| - 1].addr) then {book[|book| - 1].addr} else {})
    ensures rIdx.Keys == sIdx.Keys + KeysOf(book, key)
    ensures forall k :: Index.Members(rIdx, k) == Index.Members(sIdx, k) + Listed(book, key, k)
  {
    var front, e := book[..|book| - 1], book[|book| - 1];
    assert book == front + [e];
    assert KeysOf(book, key) == KeysOf(front, key) + {key(e.addr)};
    forall k
      ensures Listed(book, key, k) == Listed(front, key, k) + (if k == key(e.addr) then {e.addr} else {})
    {
    }
  }

  /** Every entry of `book` is already known to `t`: its key is registered
      and its address is listed under its id and under its IP. */
  ghost predicate Absorbs(t: State, book: seq<NodeAddr>, render: NodeIdIpPort -> string) {
    forall e :: e in book ==>
      && render(e.addr) in t.nodes
      && e.addr in Index.Members(t.idIpAddr, e.addr.id)
      && e.addr in Index.Members(t.ipIpAddr, e.addr.ip)
  }

  lemma MergeAbsorbs(s: State, book: seq<NodeAddr>, render: NodeIdIpPort -> string)
    ensures Absorbs(MergeBook(s, book, render), book, render)
  {
    MergeIndexesAddresses(s, book, render);
  }

  lemma {:induction false} AbsorbedBookChangesNothing(t: State, book: seq<NodeAddr>, render: NodeIdIpPort -> string)
    requires Absorbs(t, book, render)
    ensures MergeBook(t, book, render) == t
  {
    if |book| > 0 {
      var front, e := book[..|book| - 1], book[|book| - 1];
      assert forall x :: x in front ==> x in book;
      AbsorbedBookChangesNothing(t, front, render);
      assert e in book;
      EntryAbsorbed(t, e, render);
    }
  }

  lemma EntryAbsorbed(t: State, e: NodeAddr, render: NodeIdIpPort -> string)
    requires render(e.addr) in t.nodes
    requires e.addr in Index.Members(t.idIpAddr, e.addr.id)
    requires e.addr in Index.Members(t.ipIpAddr, e.addr.ip)
    ensures MergeEntry(t, e, render) == t
  {
    var u := Register(t, e, render(e.addr));
    assert u == t;
    Index.AddMemberPresent(t.idIpAddr, e.addr.id, e.addr);
    Index.AddMemberPresent(t.ipIpAddr, e.addr.ip, e.addr);
  }

  /** Merging the same book twice is merging it once. */
  lemma MergeIdempotent(s: State, book: seq<NodeAddr>, render: NodeIdIpPort -> string)
    ensures MergeBook(MergeBook(s, book, render), book, render) == MergeBook(s, book, render)
  {
    MergeAbsorbs(s, book, render);
    AbsorbedBookChangesNothing(MergeBook(s, book, render), book, render);
  }

  /** No dangling references in the node registry: every node sits under
      its own key, every indexed address belongs to its id or IP and has a
      registered node, and every queued new node is registered. */
  ghost predicate NodesConsistent(s: State, render: NodeIdIpPort -> string) {
    && (forall k :: k in s.nodes ==> render(s.nodes[k].addr) == k)
    && (forall id, a :: id in s.idIpAddr && a in s.idIpAddr[id] ==> a.id == id && render(a) in s.nodes)
    && (forall ip, a :: ip in s.ipIpAddr && a in s.ipIpAddr[ip] ==> a.ip == ip && render(a) in s.nodes)
    && s.newNodes <= s.nodes.Keys
  }

  lemma {:induction false} MergeKeepsConsistent(s: State, book: seq<NodeAddr>, render: NodeIdIpPort -> string)
    requires NodesConsistent(s, render)
    ensures NodesConsistent(MergeBook(s, book, render), render)
  {
    if |book| > 0 {
      var front := book[..|book| - 1];
      MergeKeepsConsistent(s, front, render);
      EntryKeepsConsistent(MergeBook(s, front, render), book[|book| - 1], render);
    }
  }

  lemma EntryKeepsConsistent(t: State, e: NodeAddr, render: NodeIdIpPort -> string)
    requires NodesConsistent(t, render)
    ensures NodesConsistent(MergeEntry(t, e, render), render)
  {
    var r := MergeEntry(t, e, render);
    forall id, a | id in r.idIpAddr && a in r.idIpAddr[id]
      ensures a.id == id && render(a) in r.nodes
    {
      assert a in Index.Members(r.idIpAddr, id);
    }
    forall ip, a | ip in r.ipIpAddr && a in r.ipIpAddr[ip]
      ensures a.ip == ip && render(a) in r.nodes
    {
      assert a in Index.Members(r.ipIpAddr, ip);
    }
  }

  /** One round of the crate task: a fetched book is merged, a failed fetch
      leaves the state as it was. */
  function AddressBookRound(s: State, fetched: Result<seq<NodeAddr>, FetchError>, render: NodeIdIpPort -> string): (r: State)
    ensures fetched.Err? ==> r == s
    ensures fetched.Ok? ==> OnlyBookFieldsDiffer(s, r) && Absorbs(r, fetched.value, render)
    ensures fetched.Ok? ==> r == MergeBook(s, fetched.value, render)
  {
    match fetched
    case Err(_) => s
    case Ok(book) =>
      MergeAbsorbs(s, book, render);
      MergeBook(s, book, render)
  }

  /** The older task's iteration: the same round, then the sleep rule, the
      time spent running from `start` to `now`, both read around the round. */
  function LegacyIteration(
    s: State, fetched: Result<seq<NodeAddr>, FetchError>, render: NodeIdIpPort -> string,
    start: Clock.Timestamp, now: Clock.Timestamp, period: Clock.Duration): (r: (State, Clock.SleepPlan))
    ensures fetched.Err? ==> r.0 == s
    ensures fetched.Ok? ==> OnlyBookFieldsDiffer(s, r.0) && Absorbs(r.0, fetched.value, render)
    ensures r.0 == AddressBookRound(s, fetched, render)
    ensures r.1.SleepFor? <==> period - (now - start) > Clock.NanosPerSecond
    ensures r.1.SleepFor? ==> now + r.1.span == start + period
    ensures !r.1.Abort?
  {
    (AddressBookRound(s, fetched, render), Clock.SleepAfterRound(period, now - start))
  }
}

=== FILE: bgp_fill.dfy ===
/** The BGP producer: every IP queued for ASN enrichment that has no origin
    record yet is looked up in Team Cymru's DNS zones. The origin record of
    the IP is stored with the IP listed under its ASN; the ASN's details are
    fetched only when the round's copy of the ASN table lacks them. A
    record with too few `|`-separated fields makes the task panic, which
    ends it, keeping whatever it had already written. */
module BgpFill {
  import opened Wrappers
  import Clock
  import Index
  import Text
  import opened SharedState

  /** The first TXT record a DNS query returns, as text. */
  datatype TxtAnswer = DnsError | NoRecord | Record(text: string)

  /** The outcome of one lookup: an error or no answer (both logged and
      skipped), an answer, or a record too short for the fields read, on
      which the task panics. */
  datatype Grab<T> = Failed | NoAnswer | Answer(value: T) | Malformed

  const OriginZone: string := ".origin.asn.cymru.com."

  const AsnZone: string := ".asn.cymru.com."

  function Reverse<T>(xs: seq<T>): (r: seq<T>)
    ensures |r| == |xs|
    ensures forall i :: 0 <= i < |xs| ==> r[i] == xs[|xs| - 1 - i]
  {
    if |xs| == 0 then [] else [xs[|xs| - 1]] + Reverse(xs[..|xs| - 1])
  }

  /** The origin query name of an address: its four dot-separated parts in
      reverse order under the origin zone, and nothing (the `BadIp` error)
      unless there are exactly four parts. */
  function OriginQuery(ip: string): (r: Option<string>)
    ensures r.None? <==> |Text.Split(ip, '.')| != 4
  {
    var bits := Text.Split(ip, '.');
    if |bits| == 4 then Some(bits[3] + "." + bits[2] + "." + bits[1] + "." + bits[0] + OriginZone) else None
  }

  /** The query name is the reversed octets joined by dots, and reversing
      its octets again gives the address back. */
  lemma OriginQueryReversesOctets(ip: string)
    requires |Text.Split(ip, '.')| == 4
    ensures var rev := Reverse(Text.Split(ip, '.'));
      && OriginQuery(ip) == Some(Text.Join(rev, '.') + OriginZone)
      && Text.Join(Reverse(Text.Split(Text.Join(rev, '.'), '.')), '.') == ip
  {
    var bits := Text.Split(ip, '.');
    var rev := Reverse(bits);
    assert rev == [bits[3], bits[2], bits[1], bits[0]];
    assert rev[1..][1..][1..] == [bits[0]];
    assert Text.Join(rev[1..][1..], '.') == bits[1] + "." + bits[0];
    assert Text.Join(rev[1..], '.') == bits[2] + "." + bits[1] + "." + bits[0];
    assert Text.Join(rev, '.') == bits[3] + "." + bits[2] + "." + bits[1] + "." + bits[0];
    Text.SplitJoin(rev, '.');
    assert Reverse(rev) == bits;
  }

  /** The details query name of an ASN. */
  function DetailsQuery(asn: string): string
  {
    "as" + asn + AsnZone
  }

  /** An origin record `asn | range | country | network | ...`: the first
      word of the first field, and the next three fields, each trimmed. Too
      few fields is the panic. */
  function ParseOrigin(txt: string, stamp: Clock.Timestamp): (r: Option<IpAsnMapping>)
    ensures r.None? <==> |Text.Split(txt, '|')| < 4
    ensures r.Some? ==> ' ' !in r.value.asn && r.value.lastUpdated == stamp
    ensures r.Some? ==> '|' !in r.value.range && '|' !in r.value.country && '|' !in r.value.network
  {
    var bits := Text.Split(txt, '|');
    if |bits| < 4 then None
    else
      var word := Text.Split(Text.Trim(bits[0]), ' ')[0];
      TrimKeepsOut(word, ' ');
      TrimKeepsOut(bits[1], '|');
      TrimKeepsOut(bits[2], '|');
      TrimKeepsOut(bits[3], '|');
      Some(IpAsnMapping(Text.Trim(word), Text.Trim(bits[1]), Text.Trim(bits[2]), Text.Trim(bits[3]), stamp))
  }

  /** A details record `asn | country | registry | allocated | name`: fields
      0, 1, 2 and 4, each trimmed. Too few fields is the panic. */
  function ParseDetails(txt: string, stamp: Clock.Timestamp): (r: Option<Asn>)
    ensures r.None? <==> |Text.Split(txt, '|')| < 5
    ensures r.Some? ==> '|' !in r.value.asn && '|' !in r.value.country && '|' !in r.value.net && '|' !in r.value.desc
    ensures r.Some? ==> r.value.lastUpdated == stamp
  {
    var bits := Text.Split(txt, '|');
    if |bits| < 5 then None
    else
      TrimKeepsOut(bits[0], '|');
      TrimKeepsOut(bits[1], '|');
      TrimKeepsOut(bits[2], '|');
      TrimKeepsOut(bits[4], '|');
      Some(Asn(Text.Trim(bits[0]), Text.Trim(bits[1]), Text.Trim(bits[2]), Text.Trim(bits[4]), stamp))
  }

  /** Trimming never brings a character in. */
  lemma TrimKeepsOut(s: string, c: char)
    requires c !in s
    ensures c !in Text.Trim(s)
  {
    var r := Text.Trim(s);
    var lead := |s| - |Text.TrimStart(s)|;
    forall j | 0 <= j < |r|
      ensures r[j] != c
    {
      assert r[j] == s[lead + j];
    }
  }

  /** A record as the zone serves it: the fields, space-padded, joined by `|`. */
  function Padded(fields: seq<string>): string
  {
    Text.Join(seq(|fields|, i requires 0 <= i < |fields| => " " + fields[i] + " "), '|')
  }

  /** A field with no `|` in it and no whitespace at either end. */
  predicate CleanField(x: string) {
    '|' !in x && (|x| > 0 ==> !Text.IsWhitespace(x[0]) && !Text.IsWhitespace(x[|x| - 1]))
  }

  /** Splitting a served record on `|` and trimming gives the fields back. */
  lemma PaddedFields(fields: seq<string>)
    requires |fields| >= 1
    requires forall i :: 0 <= i < |fields| ==> CleanField(fields[i])
    ensures |Text.Split(Padded(fields), '|')| == |fields|
    ensures forall i :: 0 <= i < |fields| ==> Text.Trim(Text.Split(Padded(fields), '|')[i]) == fields[i]
  {
    var padded := seq(|fields|, i requires 0 <= i < |fields| => " " + fields[i] + " ");
    forall i | 0 <= i < |fields|
      ensures '|' !in padded[i]
    {
      assert padded[i] == " " + fields[i] + " ";
    }
    Text.SplitJoin(padded, '|');
    forall i | 0 <= i < |fields|
      ensures Text.Trim(padded[i]) == fields[i]
    {
      Text.TrimPadded(fields[i]);
    }
  }

  /** An origin record as served parses to its own fields. */
  lemma ParseOriginServed(asn: string, range: string, country: string, network: string, rest: seq<string>, stamp: Clock.Timestamp)
    requires CleanField(asn) && ' ' !in asn
    requires CleanField(range) && CleanField(country) && CleanField(network)
    requires forall i :: 0 <= i < |rest| ==> CleanField(rest[i])
    ensures ParseOrigin(Padded([asn, range, country, network] + rest), stamp)
      == Some(IpAsnMapping(asn, range, country, network, stamp))
  {
    var fields := [asn, range, country, network] + rest;
    PaddedFields(fields);
    var bits := Text.Split(Padded(fields), '|');
    assert Text.Trim(bits[0]) == asn;
    Text.SplitAbsent(asn, ' ');
    Text.TrimKeepsTrimmed(asn);
    assert Text.Trim(bits[1]) == range && Text.Trim(bits[2]) == country && Text.Trim(bits[3]) == network;
  }

  /** A details record as served parses to its fields 0, 1, 2 and 4. */
  lemma ParseDetailsServed(asn: string, country: string, registry: string, since: string, name: string, stamp: Clock.Timestamp)
    requires CleanField(asn) && CleanField(country) && CleanField(registry) && CleanField(since) && CleanField(name)
    ensures ParseDetails(Padded([asn, country, registry, since, name]), stamp) == Some(Asn(asn, country, registry, name, stamp))
  {
    PaddedFields([asn, country, registry, since, name]);
  }

  /** `grab_asn_for_ip`. */
  function GrabAsnForIp(ip: string, resolve: string -> TxtAnswer, stamp: Clock.Timestamp): (r: Grab<IpAsnMapping>)
    ensures OriginQuery(ip).None? ==> r == Failed
    ensures OriginQuery(ip).Some? ==>
      var answer := resolve(OriginQuery(ip).value);
      && (answer.DnsError? <==> r.Failed?)
      && (answer.NoRecord? <==> r.NoAnswer?)
      && (r.Malformed? <==> answer.Record? && |Text.Split(answer.text, '|')| < 4)
      && (r.Answer? ==> answer.Record? && Some(r.value) == ParseOrigin(answer.text, stamp))
  {
    match OriginQuery(ip)
    case None => Failed
    case Some(query) =>
      match resolve(query)
      case DnsError => Failed
      case NoRecord => NoAnswer
      case Record(txt) =>
        match ParseOrigin(txt, stamp)
        case None => Malformed
        case Some(det) => Answer(det)
  }

  /** `grab_asn_details`. */
  function GrabAsnDetails(asn: string, resolve: string -> TxtAnswer, stamp: Clock.Timestamp): (r: Grab<Asn>)
    ensures resolve(DetailsQuery(asn)).DnsError? <==> r.Failed?
    ensures resolve(DetailsQuery(asn)).NoRecord? <==> r.NoAnswer?
    ensures r.Malformed? <==> resolve(DetailsQuery(asn)).Record? && |Text.Split(resolve(DetailsQuery(asn)).text, '|')| < 5
    ensures r.Answer? ==> Some(r.value) == ParseDetails(resolve(DetailsQuery(asn)).text, stamp)
  {
    match resolve(DetailsQuery(asn))
    case DnsError => Failed
    case NoRecord => NoAnswer
    case Record(txt) =>
      match ParseDetails(txt, stamp)
      case None => Malformed
      case Some(a) => Answer(a)
  }

  /** A round under way: the shared state, the round's copy of the ASN
      table, and whether the task has panicked. */
  datatype Progress = Progress(s: State, work: map<string, Asn>, halted: bool)

  /** Only the four tables the BGP task writes differ between `s` and `r`. */
  predicate OnlyBgpFieldsDiffer(s: State, r: State) {
    r.(newIpsBgp := s.newIpsBgp, ipAsn := s.ipAsn, asnIp := s.asnIp, asn := s.asn) == s
  }

  /** The IPs still waiting for an origin record: queued and without one. */
  function Pending(s: State): set<string>
  {
    set ip | ip in s.newIpsBgp && ip !in s.ipAsn
  }

  /** The IP's origin record stored, the IP off the queue and listed under
      its ASN. */
  function RecordOrigin(s: State, ip: string, det: IpAsnMapping): (r: State)
    ensures OnlyBgpFieldsDiffer(s, r) && r.asn == s.asn
    ensures r.ipAsn == s.ipAsn[ip := det]
    ensures r.newIpsBgp == s.newIpsBgp - {ip}
    ensures forall a :: Index.Members(r.asnIp, a) == Index.Members(s.asnIp, a) + (if a == det.asn then {ip} else {})
  {
    s.(ipAsn := s.ipAsn[ip := det],
       newIpsBgp := s.newIpsBgp - {ip},
       asnIp := Index.AddMember(s.asnIp, det.asn, ip))
  }

  /** The ASN's details fetched when the round's copy lacks them: stored in
      the copy and in the shared table on an answer, a panic on a short
      record, nothing otherwise. While the copy agrees with the shared
      table, no stored ASN record is ever replaced. */
  function FetchDetails(p: Progress, asn: string, resolve: string -> TxtAnswer, stamp: Clock.Timestamp): (r: Progress)
    requires !p.halted
    ensures asn in p.work ==> r == p
    ensures r.s == p.s.(asn := r.s.asn)
    ensures r.halted <==> asn !in p.work && GrabAsnDetails(asn, resolve, stamp).Malformed?
    ensures r.s.asn.Keys <= p.s.asn.Keys + {asn}
    ensures p.work == p.s.asn ==> r.work == r.s.asn
    ensures p.work == p.s.asn ==> forall a :: a in p.s.asn ==> a in r.s.asn && r.s.asn[a] == p.s.asn[a]
  {
    if asn in p.work then p
    else
      var g := GrabAsnDetails(asn, resolve, stamp);
      if g.Answer? then Progress(p.s.(asn := p.s.asn[asn := g.value]), p.work[asn := g.value], false)
      else if g.Malformed? then p.(halted := true)
      else p
  }

  /** One queued IP of the round. A halted round does nothing more. A
      failed or empty origin lookup changes nothing; a short record halts
      the round with the state as it was. Otherwise the ASN details are
      fetched if needed, and, unless that halts the round, the origin
      record is stored whether or not the details arrived. */
  function FillIp(p: Progress, ip: string, resolve: string -> TxtAnswer, stamp: Clock.Timestamp): (r: Progress)
    ensures p.halted ==> r == p
    ensures OnlyBgpFieldsDiffer(p.s, r.s)
    ensures p.work == p.s.asn ==> r.work == r.s.asn
    ensures p.work == p.s.asn ==> forall a :: a in p.s.asn ==> a in r.s.asn && r.s.asn[a] == p.s.asn[a]
    ensures r.halted && !p.halted ==> r.s.ipAsn == p.s.ipAsn && r.s.newIpsBgp == p.s.newIpsBgp
    ensures !p.halted && (GrabAsnForIp(ip, resolve, stamp).Failed? || GrabAsnForIp(ip, resolve, stamp).NoAnswer?) ==> r == p
    ensures !p.halted && GrabAsnForIp(ip, resolve, stamp).Malformed? ==> r == p.(halted := true)
    ensures !p.halted && !r.halted && GrabAsnForIp(ip, resolve, stamp).Answer? ==>
      var det := GrabAsnForIp(ip, resolve, stamp).value;
      && r.s.ipAsn == p.s.ipAsn[ip := det]
      && r.s.newIpsBgp == p.s.newIpsBgp - {ip}
      && (forall a :: Index.Members(r.s.asnIp, a) == Index.Members(p.s.asnIp, a) + (if a == det.asn then {ip} else {}))
    ensures r.halted && !p.halted ==>
      || GrabAsnForIp(ip, resolve, stamp).Malformed?
      || (GrabAsnForIp(ip, resolve, stamp).Answer?
          && GrabAsnDetails(GrabAsnForIp(ip, resolve, stamp).value.asn, resolve, stamp).Malformed?)
  {
    if p.halted then p
    else
      match GrabAsnForIp(ip, resolve, stamp)
      case Failed => p
      case NoAnswer => p
      case Malformed => p.(halted := true)
      case Answer(det) =>
        var q := FetchDetails(p, det.asn, resolve, stamp);
        if q.halted then q else q.(s := RecordOrigin(q.s, ip, det))
  }

  /** The IPs of `ips` in turn. */
  function FillAll(p: Progress, ips: seq<string>, resolve: string -> TxtAnswer, stamp: Clock.Timestamp): (r: Progress)
    ensures OnlyBgpFieldsDiffer(p.s, r.s)
    ensures p.work == p.s.asn ==> r.work == r.s.asn
    ensures p.work == p.s.asn ==> forall a :: a in p.s.asn ==> a in r.s.asn && r.s.asn[a] == p.s.asn[a]
    ensures p.halted ==> r == p
  {
    if |ips| == 0 then p
    else FillIp(FillAll(p, ips[..|ips| - 1], resolve, stamp), ips[|ips| - 1], resolve, stamp)
  }

  /** A lookup of `ip` that makes the task panic. */
  predicate Panics(ip: string, resolve: string -> TxtAnswer, stamp: Clock.Timestamp) {
    || GrabAsnForIp(ip, resolve, stamp).Malformed?
    || (GrabAsnForIp(ip, resolve, stamp).Answer?
        && GrabAsnDetails(GrabAsnForIp(ip, resolve, stamp).value.asn, resolve, stamp).Malformed?)
  }

  lemma FillIpPending(p: Progress, ip: string, resolve: string -> TxtAnswer, stamp: Clock.Timestamp, other: string)
    requires !p.halted
    ensures var r := FillIp(p, ip, resolve, stamp);
      !r.halted ==>
        (other in Pending(r.s) <==> other in Pending(p.s) && !(other == ip && GrabAsnForIp(ip, resolve, stamp).Answer?))
  {
  }

  /** A round that did not halt leaves pending exactly the IPs it did not
      get an origin record for; a halted round was halted by a panicking
      lookup of one of its IPs. */
  lemma {:induction false} FillAllPending(p: Progress, ips: seq<string>, resolve: string -> TxtAnswer, stamp: Clock.Timestamp, ip: string)
    requires !p.halted
    ensures var r := FillAll(p, ips, resolve, stamp);
      !r.halted ==>
        (ip in Pending(r.s) <==> ip in Pending(p.s) && !(ip in ips && GrabAsnForIp(ip, resolve, stamp).Answer?))
    ensures FillAll(p, ips, resolve, stamp).halted ==> exists x :: x in ips && Panics(x, resolve, stamp)
  {
    if |ips| > 0 {
      var front, last := ips[..|ips| - 1], ips[|ips| - 1];
      assert ips == front + [last];
      FillAllPending(p, front, resolve, stamp, ip);
      var q := FillAll(p, front, resolve, stamp);
      if !q.halted {
        FillIpPending(q, last, resolve, stamp, ip);
      }
      if FillAll(p, ips, resolve, stamp).halted && !q.halted {
        assert Panics(last, resolve, stamp);
      }
    }
  }

  /** One round over `order`, the pending IPs in the order the queue yields
      them, starting from a copy of the shared ASN table. */
  function BgpRound(s: State, order: seq<string>, resolve: string -> TxtAnswer, stamp: Clock.Timestamp): (r: Progress)
    requires forall ip :: ip in order <==> ip in Pending(s)
    ensures OnlyBgpFieldsDiffer(s, r.s)
    ensures forall a :: a in s.asn ==> a in r.s.asn && r.s.asn[a] == s.asn[a]
    ensures r.work == r.s.asn
    ensures !r.halted ==> Pending(r.s) == set ip | ip in Pending(s) && !GrabAsnForIp(ip, resolve, stamp).Answer?
    ensures r.halted ==> exists ip :: ip in Pending(s) && Panics(ip, resolve, stamp)
  {
    var r := FillAll(Progress(s, s.asn, false), order, resolve, stamp);
    forall ip
      ensures !r.halted ==> (ip in Pending(r.s) <==> ip in Pending(s) && !GrabAsnForIp(ip, resolve, stamp).Answer?)
    {
      FillAllPending(Progress(s, s.asn, false), order, resolve, stamp, ip);
    }
    FillAllPending(Progress(s, s.asn, false), order, resolve, stamp, "");
    r
  }

  /** Every IP with an origin record is listed under that record's ASN. */
  ghost predicate BgpConsistent(s: State) {
    forall ip :: ip in s.ipAsn ==> ip in Index.Members(s.asnIp, s.ipAsn[ip].asn)
  }

  lemma FillIpKeepsConsistent(p: Progress, ip: string, resolve: string -> TxtAnswer, stamp: Clock.Timestamp)
    requires BgpConsistent(p.s)
    ensures BgpConsistent(FillIp(p, ip, resolve, stamp).s)
  {
    var r := FillIp(p, ip, resolve, stamp);
    if !p.halted && !r.halted && GrabAsnForIp(ip, resolve, stamp).Answer? {
      var det := GrabAsnForIp(ip, resolve, stamp).value;
      forall x | x in r.s.ipAsn
        ensures x in Index.Members(r.s.asnIp, r.s.ipAsn[x].asn)
      {
        if x != ip {
          assert x in Index.Members(p.s.asnIp, p.s.ipAsn[x].asn);
        }
      }
    }
  }

  lemma {:induction false} FillAllKeepsConsistent(p: Progress, ips: seq<string>, resolve: string -> TxtAnswer, stamp: Clock.Timestamp)
    requires BgpConsistent(p.s)
    ensures BgpConsistent(FillAll(p, ips, resolve, stamp).s)
  {
    if |ips| > 0 {
      FillAllKeepsConsistent(p, ips[..|ips| - 1], resolve, stamp);
      FillIpKeepsConsistent(FillAll(p, ips[..|ips| - 1], resolve, stamp), ips[|ips| - 1], resolve, stamp);
    }
  }

  /** The origin record is stored even when the ASN's details could not be
      fetched, so the by-ASN index can name an ASN the ASN table lacks. */
  lemma OriginWithoutDetails(p: Progress, ip: string, resolve: string -> TxtAnswer, stamp: Clock.Timestamp)
    requires !p.halted && p.work == p.s.asn
    requires GrabAsnForIp(ip, resolve, stamp).Answer?
    requires GrabAsnForIp(ip, resolve, stamp).value.asn !in p.s.asn
    requires GrabAsnDetails(GrabAsnForIp(ip, resolve, stamp).value.asn, resolve, stamp).Failed?
    ensures var r, asn := FillIp(p, ip, resolve, stamp), GrabAsnForIp(ip, resolve, stamp).value.asn;
      asn in r.s.asnIp && asn !in r.s.asn && ip in r.s.ipAsn
  {
  }

  /** The older task's pass: the same round, then a full `period` of sleep
      when nothing was pending, or the usual sleep rule for the time spent
      from `start` to `now` otherwise. A halted round ends the task. */
  function LegacyIteration(
    s: State, order: seq<string>, resolve: string -> TxtAnswer, stamp: Clock.Timestamp,
    start: Clock.Timestamp, now: Clock.Timestamp, period: Clock.Duration): (r: (Progress, Clock.SleepPlan))
    requires forall ip :: ip in order <==> ip in Pending(s)
    ensures r.0 == BgpRound(s, order, resolve, stamp)
    ensures OnlyBgpFieldsDiffer(s, r.0.s)
    ensures forall a :: a in s.asn ==> a in r.0.s.asn && r.0.s.asn[a] == s.asn[a]
    ensures r.0.halted ==> r.1.Abort?
    ensures !r.0.halted ==> Pending(r.0.s) == set ip | ip in Pending(s) && !GrabAsnForIp(ip, resolve, stamp).Answer?
    ensures Pending(s) == {} ==> r.0.s == s && r.1 == Clock.SleepWhenIdle(period)
    ensures Pending(s) != {} && !r.0.halted ==> (r.1.SleepFor? <==> period - (now - start) > Clock.NanosPerSecond)
    ensures Pending(s) != {} && r.1.SleepFor? ==> now + r.1.span == start + period
  {
    if |order| == 0 then
      assert forall ip :: ip !in Pending(s);
      (Progress(s, s.asn, false), Clock.SleepWhenIdle(period))
    else
      assert order[0] in Pending(s);
      var p := BgpRound(s, order, resolve, stamp);
      (p, if p.halted then Clock.Abort else Clock.SleepAfterRound(period, now - start))
  }
}

=== FILE: clock.dfy ===
/** Wall-clock instants and durations as integers, and the sleep rule the
    older filler tasks apply at the end of every round. */
module Clock {

  /** A UTC instant, in nanoseconds since 1970-01-01T00:00:00Z. */
  type Timestamp = int

  /** A signed span of time in nanoseconds (chrono's `Duration`). */
  type Duration = int

  const NanosPerSecond: int := 1_000_000_000

  /** Days from 1970-01-01 to the given proleptic Gregorian date. */
  function DaysFromCivil(year: int, month: int, day: int): int
    requires 1 <= month <= 12 && 1 <= day <= 31
  {
    var y := if month <= 2 then year - 1 else year;
    var era := y / 400;
    var yoe := y - era * 400;
    var mp := if month > 2 then month - 3 else month + 9;
    var doy := (153 * mp + 2) / 5 + day - 1;
    var doe := yoe * 365 + yoe / 4 - yoe / 100 + doy;
    era * 146097 + doe - 719468
  }

  /** The instant written `year-month-dayThour:minute:second.nanosZ`. */
  function UtcInstant(year: int, month: int, day: int, hour: nat, minute: nat, second: nat, nanos: nat): Timestamp
    requires 1 <= month <= 12 && 1 <= day <= 31
    requires hour < 24 && minute < 60 && second < 60 && nanos < NanosPerSecond
  {
    ((DaysFromCivil(year, month, day) * 24 + hour) * 60 + minute) * 60 * NanosPerSecond
      + second * NanosPerSecond + nanos
  }

  /** `2019-10-12T07:20:50.52Z`, the `last_saved` of a state never checkpointed. */
  const NeverSaved: Timestamp := UtcInstant(2019, 10, 12, 7, 20, 50, 520_000_000)

  /** The sentinel is 1570864850.52 seconds after the epoch. */
  lemma NeverSavedValue()
    ensures NeverSaved == 1_570_864_850 * NanosPerSecond + 520_000_000
  {
  }

  /** What a task does between two rounds. `Abort` is `to_std()?` failing on a
      negative duration, which returns an error out of the task's loop. */
  datatype SleepPlan = SleepFor(span: Duration) | NoRest | Abort

  /** After a round that took `spent` out of `period`: sleep the remainder
      when it exceeds one second, otherwise start the next round at once.
      A sleep always ends exactly one period after the round began; going
      straight on means the round took at least the period less one second,
      however much longer it ran. */
  function SleepAfterRound(period: Duration, spent: Duration): (p: SleepPlan)
    ensures !p.Abort?
    ensures p.SleepFor? <==> period - spent > NanosPerSecond
    ensures p.SleepFor? ==> spent + p.span == period && p.span > NanosPerSecond
    ensures p.NoRest? ==> period <= spent + NanosPerSecond
  {
    if period - spent > NanosPerSecond then SleepFor(period - spent) else NoRest
  }

  /** With nothing to do, sleep the whole period; a negative period cannot
      be turned into a std duration and ends the task. */
  function SleepWhenIdle(period: Duration): (p: SleepPlan)
    ensures p.Abort? <==> period < 0
    ensures p.SleepFor? ==> p.span == period
    ensures !p.NoRest?
  {
    if period < 0 then Abort else SleepFor(period)
  }
}

=== FILE: geo_fill.dfy ===
/** The geo producer: every IP queued for geo enrichment that has no
    country yet is looked up in the MaxMind city database, and each section
    of the answer (city, country, continent) present is recorded. A record
    is inserted only under an id not seen before; the IP's forward entry
    and its membership in the reverse index are set for every present
    section. A successful lookup takes the IP off the queue; a failed one
    leaves it there for the next round. */
module GeoFill {
  import opened Wrappers
  import Clock
  import Index
  import opened SharedState

  /** The `city` section of a MaxMind answer. */
  datatype CitySection = CitySection(geonameId: Option<GeoId>, names: Option<map<string, string>>)

  /** The `country` section. */
  datatype CountrySection = CountrySection(
    geonameId: Option<GeoId>,
    names: Option<map<string, string>>,
    isInEuropeanUnion: Option<bool>,
    isoCode: Option<string>)

  /** The `continent` section. */
  datatype ContinentSection = ContinentSection(geonameId: Option<GeoId>, names: Option<map<string, string>>, code: Option<string>)

  /** `geoip2::City`, reduced to the three sections read. */
  datatype City = City(city: Option<CitySection>, country: Option<CountrySection>, continent: Option<ContinentSection>)

  /** The outcome of parsing the queued string as an IP and looking it up:
      the parse fails, the database fails, or an answer. */
  datatype Lookup = BadIp | DbError | Found(answer: City)

  datatype GeoError = DbOpenFailed

  /** A missing geoname id counts as 0. */
  function IdOr0(id: Option<GeoId>): GeoId
  {
    id.GetOr(0)
  }

  /** The English name of a section: none when the section has no names at
      all, the placeholder `-none-` when it has names but no English one. */
  function EnName(names: Option<map<string, string>>): (r: Option<string>)
    ensures names.None? <==> r.None?
    ensures names.Some? && "en" in names.value ==> r == Some(names.value["en"])
    ensures names.Some? && "en" !in names.value ==> r == Some("-none-")
  {
    match names
    case None => None
    case Some(m) => Some(if "en" in m then m["en"] else "-none-")
  }

  /** The ids an answer files the IP under; an absent section gives 0. */
  function CityId(c: City): GeoId { if c.city.Some? then IdOr0(c.city.value.geonameId) else 0 }

  function CountryId(c: City): GeoId { if c.country.Some? then IdOr0(c.country.value.geonameId) else 0 }

  function ContinentId(c: City): GeoId { if c.continent.Some? then IdOr0(c.continent.value.geonameId) else 0 }

  /** Only the geo tables and the geo queue differ between `s` and `r`. */
  predicate OnlyGeoFieldsDiffer(s: State, r: State) {
    r.(newIpsGeo := s.newIpsGeo,
       geoCity := s.geoCity, geoCountry := s.geoCountry, geoContinent := s.geoContinent,
       geoIpCity := s.geoIpCity, geoIpCountry := s.geoIpCountry, geoIpContinent := s.geoIpContinent,
       geoCityIp := s.geoCityIp, geoCountryIp := s.geoCountryIp, geoContinentIp := s.geoContinentIp) == s
  }

  /** The city section: the record under its id if that id is new (with the
      answer's country and continent ids), the IP's forward entry, and the
      IP added to the id's reverse set. */
  function RecordCity(s: State, ip: string, cx: CitySection, country: GeoId, continent: GeoId, stamp: Clock.Timestamp): (r: State)
    ensures r == s.(geoCity := r.geoCity, geoIpCity := r.geoIpCity, geoCityIp := r.geoCityIp)
    ensures r.geoIpCity == s.geoIpCity[ip := IdOr0(cx.geonameId)]
    ensures r.geoCity.Keys == s.geoCity.Keys + {IdOr0(cx.geonameId)}
    ensures forall id :: id in s.geoCity ==> r.geoCity[id] == s.geoCity[id]
    ensures IdOr0(cx.geonameId) !in s.geoCity ==>
      r.geoCity[IdOr0(cx.geonameId)] == GeoCity(IdOr0(cx.geonameId), EnName(cx.names), country, continent, stamp)
    ensures forall id ::
      Index.Members(r.geoCityIp, id) == Index.Members(s.geoCityIp, id) + (if id == IdOr0(cx.geonameId) then {ip} else {})
  {
    var id := IdOr0(cx.geonameId);
    var record := GeoCity(id, EnName(cx.names), country, continent, stamp);
    s.(geoCity := Index.InsertIfAbsent(s.geoCity, id, record),
       geoIpCity := s.geoIpCity[ip := id],
       geoCityIp := Index.AddMember(s.geoCityIp, id, ip))
  }

  /** The country section, as for the city. */
  function RecordCountry(s: State, ip: string, cx: CountrySection, stamp: Clock.Timestamp): (r: State)
    ensures r == s.(geoCountry := r.geoCountry, geoIpCountry := r.geoIpCountry, geoCountryIp := r.geoCountryIp)
    ensures r.geoIpCountry == s.geoIpCountry[ip := IdOr0(cx.geonameId)]
    ensures r.geoCountry.Keys == s.geoCountry.Keys + {IdOr0(cx.geonameId)}
    ensures forall id :: id in s.geoCountry ==> r.geoCountry[id] == s.geoCountry[id]
    ensures IdOr0(cx.geonameId) !in s.geoCountry ==>
      r.geoCountry[IdOr0(cx.geonameId)]
        == GeoCountry(IdOr0(cx.geonameId), EnName(cx.names), cx.isInEuropeanUnion, cx.isoCode, stamp)
    ensures forall id ::
      Index.Members(r.geoCountryIp, id) == Index.Members(s.geoCountryIp, id) + (if id == IdOr0(cx.geonameId) then {ip} else {})
  {
    var id := IdOr0(cx.geonameId);
    var record := GeoCountry(id, EnName(cx.names), cx.isInEuropeanUnion, cx.isoCode, stamp);
    s.(geoCountry := Index.InsertIfAbsent(s.geoCountry, id, record),
       geoIpCountry := s.geoIpCountry[ip := id],
       geoCountryIp := Index.AddMember(s.geoCountryIp, id, ip))
  }

  /** The continent section, as for the city. */
  function RecordContinent(s: State, ip: string, cx: ContinentSection, stamp: Clock.Timestamp): (r: State)
    ensures r == s.(geoContinent := r.geoContinent, geoIpContinent := r.geoIpContinent, geoContinentIp := r.geoContinentIp)
    ensures r.geoIpContinent == s.geoIpContinent[ip := IdOr0(cx.geonameId)]
    ensures r.geoContinent.Keys == s.geoContinent.Keys + {IdOr0(cx.geonameId)}
    ensures forall id :: id in s.geoContinent ==> r.geoContinent[id] == s.geoContinent[id]
    ensures IdOr0(cx.geonameId) !in s.geoContinent ==>
      r.geoContinent[IdOr0(cx.geonameId)] == GeoContinent(IdOr0(cx.geonameId), EnName(cx.names), cx.code, stamp)
    ensures forall id ::
      Index.Members(r.geoContinentIp, id)
        == Index.Members(s.geoContinentIp, id) + (if id == IdOr0(cx.geonameId) then {ip} else {})
  {
    var id := IdOr0(cx.geonameId);
    var record := GeoContinent(id, EnName(cx.names), cx.code, stamp);
    s.(geoContinent := Index.InsertIfAbsent(s.geoContinent, id, record),
       geoIpContinent := s.geoIpContinent[ip := id],
       geoContinentIp := Index.AddMember(s.geoContinentIp, id, ip))
  }

  /** One queued IP. A failed parse or lookup changes nothing. An answer
      records each present section, leaves the tables of an absent section
      alone, never replaces an existing record, and takes the IP off the
      queue. */
  function FillIp(s: State, ip: string, lookup: Lookup, stamp: Clock.Timestamp): (r: State)
    ensures !lookup.Found? ==> r == s
    ensures OnlyGeoFieldsDiffer(s, r)
    ensures lookup.Found? ==> r.newIpsGeo == s.newIpsGeo - {ip}
    ensures lookup.Found? && lookup.answer.city.Some? ==> r.geoIpCity == s.geoIpCity[ip := CityId(lookup.answer)]
    ensures lookup.Found? && lookup.answer.country.Some? ==> r.geoIpCountry == s.geoIpCountry[ip := CountryId(lookup.answer)]
    ensures lookup.Found? && lookup.answer.continent.Some? ==>
      r.geoIpContinent == s.geoIpContinent[ip := ContinentId(lookup.answer)]
    ensures lookup.Found? && lookup.answer.city.None? ==>
      r.geoCity == s.geoCity && r.geoIpCity == s.geoIpCity && r.geoCityIp == s.geoCityIp
    ensures lookup.Found? && lookup.answer.country.None? ==>
      r.geoCountry == s.geoCountry && r.geoIpCountry == s.geoIpCountry && r.geoCountryIp == s.geoCountryIp
    ensures lookup.Found? && lookup.answer.continent.None? ==>
      r.geoContinent == s.geoContinent && r.geoIpContinent == s.geoIpContinent && r.geoContinentIp == s.geoContinentIp
    ensures forall id :: id in s.geoCity ==> id in r.geoCity && r.geoCity[id] == s.geoCity[id]
    ensures forall id :: id in s.geoCountry ==> id in r.geoCountry && r.geoCountry[id] == s.geoCountry[id]
    ensures forall id :: id in s.geoContinent ==> id in r.geoContinent && r.geoContinent[id] == s.geoContinent[id]
  {
    match lookup
    case BadIp => s
    case DbError => s
    case Found(c) =>
      var t := RecordSections(s, ip, c, stamp);
      t.(newIpsGeo := t.newIpsGeo - {ip})
  }

  /** The present sections of an answer, city first, then country, then
      continent. */
  function RecordSections(s: State, ip: string, c: City, stamp: Clock.Timestamp): State
  {
    var s1 := if c.city.Some? then RecordCity(s, ip, c.city.value, CountryId(c), ContinentId(c), stamp) else s;
    var s2 := if c.country.Some? then RecordCountry(s1, ip, c.country.value, stamp) else s1;
    if c.continent.Some? then RecordContinent(s2, ip, c.continent.value, stamp) else s2
  }

  /** The IPs still waiting for a country: queued and without one. */
  function Pending(s: State): set<string>
  {
    set ip | ip in s.newIpsGeo && ip !in s.geoIpCountry
  }

  /** Every IP of `ips` in turn, each with the database's answer for it. */
  function FillAll(s: State, ips: seq<string>, lookup: string -> Lookup, stamp: Clock.Timestamp): (r: State)
    ensures OnlyGeoFieldsDiffer(s, r)
  {
    if |ips| == 0 then s
    else FillIp(FillAll(s, ips[..|ips| - 1], lookup, stamp), ips[|ips| - 1], lookup(ips[|ips| - 1]), stamp)
  }

  /** One IP leaves the pending set exactly when its lookup answers; no
      other IP enters or leaves it. */
  lemma FillIpPending(s: State, ip: string, lookup: Lookup, stamp: Clock.Timestamp, other: string)
    ensures other in Pending(FillIp(s, ip, lookup, stamp)) <==> other in Pending(s) && !(other == ip && lookup.Found?)
  {
  }

  lemma {:induction false} FillAllPending(s: State, ips: seq<string>, lookup: string -> Lookup, stamp: Clock.Timestamp, ip: string)
    ensures ip in Pending(FillAll(s, ips, lookup, stamp)) <==> ip in Pending(s) && !(ip in ips && lookup(ip).Found?)
  {
    if |ips| > 0 {
      var front, last := ips[..|ips| - 1], ips[|ips| - 1];
      assert ips == front + [last];
      FillAllPending(s, front, lookup, stamp, ip);
      FillIpPending(FillAll(s, front, lookup, stamp), last, lookup(last), stamp, ip);
    }
  }

  /** The geo lookups of one round over `order`, the pending IPs in the
      order the queue yields them: afterwards exactly those whose lookup
      failed are still pending. */
  function GeoRound(s: State, order: seq<string>, lookup: string -> Lookup, stamp: Clock.Timestamp): (r: State)
    requires forall ip :: ip in order <==> ip in Pending(s)
    ensures OnlyGeoFieldsDiffer(s, r)
    ensures Pending(r) == set ip | ip in Pending(s) && !lookup(ip).Found?
  {
    var r := FillAll(s, order, lookup, stamp);
    forall ip
      ensures ip in Pending(r) <==> ip in Pending(s) && !lookup(ip).Found?
    {
      FillAllPending(s, order, lookup, stamp, ip);
    }
    r
  }

  /** No dangling geo entries: every IP's city, country and continent id
      has a record, and the IP is listed in that id's reverse set. */
  ghost predicate GeoConsistent(s: State) {
    CityConsistent(s) && CountryConsistent(s) && ContinentConsistent(s)
  }

  ghost predicate CityConsistent(s: State) {
    forall ip :: ip in s.geoIpCity ==> s.geoIpCity[ip] in s.geoCity && ip in Index.Members(s.geoCityIp, s.geoIpCity[ip])
  }

  ghost predicate CountryConsistent(s: State) {
    forall ip :: ip in s.geoIpCountry ==>
      s.geoIpCountry[ip] in s.geoCountry && ip in Index.Members(s.geoCountryIp, s.geoIpCountry[ip])
  }

  ghost predicate ContinentConsistent(s: State) {
    forall ip :: ip in s.geoIpContinent ==>
      s.geoIpContinent[ip] in s.geoContinent && ip in Index.Members(s.geoContinentIp, s.geoIpContinent[ip])
  }

  lemma RecordCityKeepsConsistent(s: State, ip: string, cx: CitySection, country: GeoId, continent: GeoId, stamp: Clock.Timestamp)
    requires GeoConsistent(s)
    ensures GeoConsistent(RecordCity(s, ip, cx, country, continent, stamp))
  {
    var r := RecordCity(s, ip, cx, country, continent, stamp);
    assert CountryConsistent(r) && ContinentConsistent(r);
  }

  lemma RecordCountryKeepsConsistent(s: State, ip: string, cx: CountrySection, stamp: Clock.Timestamp)
    requires GeoConsistent(s)
    ensures GeoConsistent(RecordCountry(s, ip, cx, stamp))
  {
    var r := RecordCountry(s, ip, cx, stamp);
    assert CityConsistent(r) && ContinentConsistent(r);
  }

  lemma RecordContinentKeepsConsistent(s: State, ip: string, cx: ContinentSection, stamp: Clock.Timestamp)
    requires GeoConsistent(s)
    ensures GeoConsistent(RecordContinent(s, ip, cx, stamp))
  {
    var r := RecordContinent(s, ip, cx, stamp);
    assert CityConsistent(r) && CountryConsistent(r);
  }

  lemma RecordSectionsKeepsConsistent(s: State, ip: string, c: City, stamp: Clock.Timestamp)
    requires GeoConsistent(s)
    ensures GeoConsistent(RecordSections(s, ip, c, stamp))
  {
    var s1 := if c.city.Some? then RecordCity(s, ip, c.city.value, CountryId(c), ContinentId(c), stamp) else s;
    if c.city.Some? {
      RecordCityKeepsConsistent(s, ip, c.city.value, CountryId(c), ContinentId(c), stamp);
    }
    var s2 := if c.country.Some? then RecordCountry(s1, ip, c.country.value, stamp) else s1;
    if c.country.Some? {
      RecordCountryKeepsConsistent(s1, ip, c.country.value, stamp);
    }
    if c.continent.Some? {
      RecordContinentKeepsConsistent(s2, ip, c.continent.value, stamp);
    }
  }

  lemma FillIpKeepsConsistent(s: State, ip: string, lookup: Lookup, stamp: Clock.Timestamp)
    requires GeoConsistent(s)
    ensures GeoConsistent(FillIp(s, ip, lookup, stamp))
  {
    if lookup.Found? {
      RecordSectionsKeepsConsistent(s, ip, lookup.answer, stamp);
      var t := RecordSections(s, ip, lookup.answer, stamp);
      assert FillIp(s, ip, lookup, stamp) == t.(newIpsGeo := t.newIpsGeo - {ip});
    }
  }

  lemma {:induction false} FillAllKeepsConsistent(s: State, ips: seq<string>, lookup: string -> Lookup, stamp: Clock.Timestamp)
    requires GeoConsistent(s)
    ensures GeoConsistent(FillAll(s, ips, lookup, stamp))
  {
    if |ips| > 0 {
      FillAllKeepsConsistent(s, ips[..|ips| - 1], lookup, stamp);
      FillIpKeepsConsistent(FillAll(s, ips[..|ips| - 1], lookup, stamp), ips[|ips| - 1], lookup(ips[|ips| - 1]), stamp);
    }
  }

  /** One pass of the crate task's loop: the database must open, or the task
      ends with the error; otherwise the round over the pending IPs. */
  function GeoPass(s: State, dbOpens: bool, order: seq<string>, lookup: string -> Lookup, stamp: Clock.Timestamp): (r: Result<State, GeoError>)
    requires forall ip :: ip in order <==> ip in Pending(s)
    ensures !dbOpens <==> r == Err(DbOpenFailed)
    ensures r.Ok? ==> OnlyGeoFieldsDiffer(s, r.value)
    ensures r.Ok? ==> Pending(r.value) == set ip | ip in Pending(s) && !lookup(ip).Found?
    ensures r.Ok? && order == [] ==> r.value == s
  {
    if !dbOpens then Err(DbOpenFailed) else Ok(GeoRound(s, order, lookup, stamp))
  }

  /** The older task's pass: the same round, then a full `period` of sleep
      when nothing was pending, or the usual sleep rule for the time spent
      from `start` to `now` otherwise. */
  function LegacyIteration(
    s: State, dbOpens: bool, order: seq<string>, lookup: string -> Lookup, stamp: Clock.Timestamp,
    start: Clock.Timestamp, now: Clock.Timestamp, period: Clock.Duration): (r: Result<(State, Clock.SleepPlan), GeoError>)
    requires forall ip :: ip in order <==> ip in Pending(s)
    ensures !dbOpens <==> r == Err(DbOpenFailed)
    ensures r.Ok? ==> OnlyGeoFieldsDiffer(s, r.value.0)
    ensures r.Ok? ==> Pending(r.value.0) == set ip | ip in Pending(s) && !lookup(ip).Found?
    ensures r.Ok? ==> Ok(r.value.0) == GeoPass(s, dbOpens, order, lookup, stamp)
    ensures r.Ok? && Pending(s) == {} ==> r.value.0 == s && r.value.1 == Clock.SleepWhenIdle(period)
    ensures r.Ok? && Pending(s) != {} ==>
      (r.value.1.SleepFor? <==> period - (now - start) > Clock.NanosPerSecond)
    ensures r.Ok? && Pending(s) != {} && r.value.1.SleepFor? ==> now + r.value.1.span == start + period
  {
    if !dbOpens then Err(DbOpenFailed)
    else if |order| == 0 then
      assert forall ip :: ip !in Pending(s);
      Ok((s, Clock.SleepWhenIdle(period)))
    else
      assert order[0] in Pending(s);
      Ok((GeoRound(s, order, lookup, stamp), Clock.SleepAfterRound(period, now - start)))
  }
}

=== FILE: index.dfy ===
/** The two map idioms every producer of the shared state repeats:
    `Entry::Vacant(e) => e.insert(v)` (insert only when the key is absent),
    and "clone the set under a key, or start an empty one, add a member, put
    it back" (a reverse index from a key to a set of members). */
module Index {

  /** `if let Entry::Vacant(e) = m.entry(k) { e.insert(v) }`. */
  function InsertIfAbsent<K, V>(m: map<K, V>, k: K, v: V): (r: map<K, V>)
    ensures r.Keys == m.Keys + {k}
    ensures forall k' :: k' in m ==> r[k'] == m[k']
    ensures k !in m ==> r[k] == v
  {
    if k in m then m else m[k := v]
  }

  /** The members recorded under `k`, empty when `k` has no entry. */
  function Members<K, V>(idx: map<K, set<V>>, k: K): set<V>
  {
    if k in idx then idx[k] else {}
  }

  /** Add `v` to the set under `k`, creating the set when `k` is new. */
  function AddMember<K, V>(idx: map<K, set<V>>, k: K, v: V): (r: map<K, set<V>>)
    ensures r.Keys == idx.Keys + {k}
    ensures r[k] == Members(idx, k) + {v}
    ensures forall k' :: k' in idx && k' != k ==> r[k'] == idx[k']
  {
    idx[k := Members(idx, k) + {v}]
  }

  /** Neither idiom ever takes anything away. */
  lemma AddMemberGrows<K, V>(idx: map<K, set<V>>, k: K, v: V, k': K)
    ensures Members(idx, k') <= Members(AddMember(idx, k, v), k')
    ensures v in Members(AddMember(idx, k, v), k)
  {
  }

  /** Adding a value already listed under its key changes nothing. */
  lemma AddMemberPresent<K, V>(idx: map<K, set<V>>, k: K, v: V)
    requires v in Members(idx, k)
    ensures AddMember(idx, k, v) == idx
  {
    assert Members(idx, k) + {v} == idx[k];
    assert AddMember(idx, k, v).Keys == idx.Keys;
  }

  /** `xs[i]` is the last element of `xs` with its key. */
  ghost predicate LastWithKey<T, K>(xs: seq<T>, key: T -> K, i: int) {
    0 <= i < |xs| && forall j :: i < j < |xs| ==> key(xs[j]) != key(xs[i])
  }

  /** Insert `key(x) := value(x)` for every `x` of `xs` in order, into an
      empty map: the keys are exactly the keys of the elements, and each
      key holds the value of the LAST element carrying it. */
  function IndexBy<T, K, V>(xs: seq<T>, key: T -> K, value: T -> V): (r: map<K, V>)
    ensures r.Keys == set x | x in xs :: key(x)
    ensures forall k :: k in r ==>
      exists i :: LastWithKey(xs, key, i) && key(xs[i]) == k && r[k] == value(xs[i])
  {
    if |xs| == 0 then map[]
    else
      var front := xs[..|xs| - 1];
      var x := xs[|xs| - 1];
      var r := IndexBy(front, key, value)[key(x) := value(x)];
      assert xs == front + [x];
      assert LastWithKey(xs, key, |xs| - 1);
      forall k | k in r && k != key(x)
        ensures exists i :: LastWithKey(xs, key, i) && key(xs[i]) == k && r[k] == value(xs[i])
      {
        var i :| LastWithKey(front, key, i) && key(front[i]) == k && IndexBy(front, key, value)[k] == value(front[i]);
        assert xs[i] == front[i];
        assert LastWithKey(xs, key, i);
      }
      r
  }
}

=== FILE: legacy_state.dfy ===
/** The earlier, smaller state schema of the single-binary service: the node
    registry, one queue of new IPs, and the ASN tables without timestamps.
    It has no reverse indices and no geo tables. */
module LegacyState {
  import opened Wrappers
  import Clock
  import Versioned
  import SharedState

  datatype Asn = Asn(asn: string, country: string, net: string, desc: string)

  datatype IpAsnMapping = IpAsnMapping(asn: string, range: string, country: string, network: string)

  datatype State = State(
    lastSaved: Clock.Timestamp,
    nodes: map<string, SharedState.NodeAddr>,
    newNodes: set<string>,
    newIps: set<string>,
    ipAsn: map<string, IpAsnMapping>,
    asn: map<string, Asn>)

  /** `State::new` of the earlier schema: all empty, never saved. */
  function New(): (s: State)
    ensures s.lastSaved == Clock.NeverSaved
    ensures s.nodes == map[] && s.newNodes == {} && s.newIps == {}
    ensures s.ipAsn == map[] && s.asn == map[]
  {
    State(Clock.NeverSaved, map[], {}, {}, map[], map[])
  }

  /** `a` and `b` agree on everything but `last_saved`. */
  predicate SameButLastSaved(a: State, b: State) {
    a.(lastSaved := b.lastSaved) == b
  }

  /** Start-up with the earlier schema: the checkpointed state, or a new one. */
  function RestoreOrNew(f: Versioned.CheckpointFile<State>): (s: State)
    ensures f.Document? && f.tag == Versioned.Version1Tag ==> s == f.body
    ensures !(f.Document? && f.tag == Versioned.Version1Tag) ==> s == New()
  {
    Versioned.RestoreOr(f, New())
  }

  /** The earlier schema uses the same single-tag envelope: what is saved
      restores to itself, and nothing else restores. */
  lemma CheckpointRoundTrip(s: State, f: Versioned.CheckpointFile<State>)
    ensures Versioned.Restore(Versioned.Save(s)) == Ok(Versioned.StateVersion1(s))
    ensures Versioned.Restore(f).Ok? ==> f == Versioned.Save(Versioned.Restore(f).value.state)
  {
  }
}

=== FILE: observer_intake.dfy ===
/** The observer's block classifier: one decoded `new_block` notification
    becomes an ordered list of domain messages for the broker, one per
    transaction and at most one per begin-block or end-block event. The
    websocket loop around it is not modelled; decoding of coin lists and
    decimals is done by library code, passed in as `Decoders`. */
module ObserverIntake {
  import opened Wrappers
  import Text
  import Clock

  /** A `rust_decimal::Decimal`: `mantissa * 10^-scale`. */
  datatype Decimal = Decimal(mantissa: int, scale: nat)

  /** One `amount denom` pair of a coin string. */
  datatype Coin = Coin(denom: string, amount: Decimal)

  /** One message inside a transaction body; `value` is its raw JSON. */
  datatype BlockMsg = BlockMsg(kind: string, value: string)

  /** A transaction with its execution result (`TXandResult`). */
  datatype Tx = Tx(
    height: nat,
    txhash: string,
    rawLog: string,
    gasWanted: nat,
    gasUsed: nat,
    envelope: string,
    msgs: seq<BlockMsg>,
    memo: string,
    timestamp: Clock.Timestamp)

  /** A begin- or end-block event: its type and its attribute map, whose
      keys and values have already been transport-decoded. A key may be
      present with a null value. */
  datatype BlockEvent = BlockEvent(kind: string, attributes: map<string, Option<string>>)

  /** A validator-set change reported in the end block. */
  datatype ValidatorUpdate = ValidatorUpdate(pubKeyType: string, pubKeyData: string, power: nat)

  /** The parts of a `new_block` notification the classifier reads. */
  datatype NewBlock = NewBlock(
    chainId: string,
    height: nat,
    txs: Option<seq<Tx>>,
    beginEvents: seq<BlockEvent>,
    endEvents: Option<seq<BlockEvent>>,
    validatorUpdates: seq<ValidatorUpdate>)

  /** The library parsers the classifier calls: `Coin::parse_coins` and
      `Decimal::from_str`, each `None` on a parse error. */
  datatype Decoders = Decoders(
    parseCoins: string -> Option<seq<Coin>>,
    parseDecimal: string -> Option<Decimal>)

  /** The messages issued to the broker. */
  datatype Message =
    | MessageTx(tx: Tx)
    | MessageReward(height: nat, isBegin: bool, isProposer: bool, validator: string, amount: seq<Coin>)
    | MessageCommission(height: nat, isBegin: bool, validator: string, amount: seq<Coin>)
    | MessageLiveness(height: nat, isBegin: bool, tendermintAddress: string, missed: nat)
    | MessageExchangeRate(height: nat, denom: string, exchangeRate: Decimal)
  {
    /** Block-event messages that record which half of the block they came from. */
    predicate HasBlockHalf() {
      MessageReward? || MessageCommission? || MessageLiveness?
    }
  }

  datatype IntakeError = PushFailed

  /** The event types that can give rise to a message. */
  const EmittingKinds: set<string> :=
    {"rewards", "proposer_reward", "commission", "liveness", "exchange_rate_update"}

  /** `get_required_kv`: the value under `key`, when the key is present and
      its value is not null. */
  function GetRequiredKv(attributes: map<string, Option<string>>, key: string): (r: Option<string>)
    ensures r.Some? <==> key in attributes && attributes[key].Some?
    ensures r.Some? ==> attributes[key] == Some(r.value)
  {
    if key in attributes then attributes[key] else None
  }

  /** The shared rule of the `rewards`, `proposer_reward` and `commission`
      events: no validator, nothing; no amount, an empty coin list; an
      amount that does not parse, nothing. */
  function ValidatorCoins(attributes: map<string, Option<string>>, dec: Decoders): (r: Option<(string, seq<Coin>)>)
    ensures r.Some? <==>
      && GetRequiredKv(attributes, "validator").Some?
      && (GetRequiredKv(attributes, "amount").Some? ==>
            dec.parseCoins(GetRequiredKv(attributes, "amount").value).Some?)
    ensures r.Some? ==> Some(r.value.0) == GetRequiredKv(attributes, "validator")
    ensures r.Some? && GetRequiredKv(attributes, "amount").None? ==> r.value.1 == []
    ensures r.Some? && GetRequiredKv(attributes, "amount").Some? ==>
      Some(r.value.1) == dec.parseCoins(GetRequiredKv(attributes, "amount").value)
  {
    match GetRequiredKv(attributes, "validator")
    case None => None
    case Some(validator) =>
      match GetRequiredKv(attributes, "amount")
      case None => Some((validator, []))
      case Some(amount) =>
        match dec.parseCoins(amount)
        case None => None
        case Some(coins) => Some((validator, coins))
  }

  /** The `missed` count of a liveness event: `missed_blocks` read as a
      `usize`, with 0 when the attribute is missing or malformed. */
  function MissedBlocks(attributes: map<string, Option<string>>): (n: nat)
    ensures n < Text.UsizeLimit
    ensures GetRequiredKv(attributes, "missed_blocks").None? ==> n == 0
    ensures (GetRequiredKv(attributes, "missed_blocks").Some?
             && Text.ParseUsize(GetRequiredKv(attributes, "missed_blocks").value).None?) ==> n == 0
    ensures (GetRequiredKv(attributes, "missed_blocks").Some?
             && Text.ParseUsize(GetRequiredKv(attributes, "missed_blocks").value).Some?)
            ==> n == Text.ParseUsize(GetRequiredKv(attributes, "missed_blocks").value).value
  {
    Text.ParseUsize(GetRequiredKv(attributes, "missed_blocks").GetOr("0")).GetOr(0)
  }

  /** `process_event`: the message, if any, one block event gives rise to. */
  function ProcessEvent(height: nat, isBegin: bool, event: BlockEvent, dec: Decoders): (r: Option<Message>)
    ensures event.kind !in EmittingKinds ==> r.None?
    ensures r.Some? ==> !r.value.MessageTx? && r.value.height == height
    ensures r.Some? && r.value.HasBlockHalf() ==> r.value.isBegin == isBegin
    ensures event.kind in {"rewards", "proposer_reward"} ==>
      (r.Some? <==> ValidatorCoins(event.attributes, dec).Some?)
      && (r.Some? ==>
            && r.value.MessageReward?
            && r.value.isProposer == (event.kind == "proposer_reward")
            && (r.value.validator, r.value.amount) == ValidatorCoins(event.attributes, dec).value)
    ensures event.kind == "commission" ==>
      (r.Some? <==> ValidatorCoins(event.attributes, dec).Some?)
      && (r.Some? ==>
            && r.value.MessageCommission?
            && (r.value.validator, r.value.amount) == ValidatorCoins(event.attributes, dec).value)
    ensures event.kind == "liveness" ==>
      (r.Some? <==> GetRequiredKv(event.attributes, "address").Some?)
      && (r.Some? ==>
            && r.value.MessageLiveness?
            && Some(r.value.tendermintAddress) == GetRequiredKv(event.attributes, "address")
            && r.value.missed == MissedBlocks(event.attributes))
    ensures event.kind == "exchange_rate_update" ==>
      (r.Some? <==>
         && GetRequiredKv(event.attributes, "denom").Some?
         && GetRequiredKv(event.attributes, "exchange_rate").Some?
         && dec.parseDecimal(GetRequiredKv(event.attributes, "exchange_rate").value).Some?)
      && (r.Some? ==>
            && r.value.MessageExchangeRate?
            && Some(r.value.denom) == GetRequiredKv(event.attributes, "denom")
            && Some(r.value.exchangeRate)
               == dec.parseDecimal(GetRequiredKv(event.attributes, "exchange_rate").value))
  {
    var attributes := event.attributes;
    match event.kind
    case "rewards" =>
      (match ValidatorCoins(attributes, dec)
       case None => None
       case Some((v, coins)) => Some(MessageReward(height, isBegin, false, v, coins)))
    case "proposer_reward" =>
      (match ValidatorCoins(attributes, dec)
       case None => None
       case Some((v, coins)) => Some(MessageReward(height, isBegin, true, v, coins)))
    case "commission" =>
      (match ValidatorCoins(attributes, dec)
       case None => None
       case Some((v, coins)) => Some(MessageCommission(height, isBegin, v, coins)))
    case "liveness" =>
      (match GetRequiredKv(attributes, "address")
       case None => None
       case Some(address) => Some(MessageLiveness(height, isBegin, address, MissedBlocks(attributes))))
    case "exchange_rate_update" =>
      (match GetRequiredKv(attributes, "denom")
       case None => None
       case Some(denom) =>
         match GetRequiredKv(attributes, "exchange_rate")
         case None => None
         case Some(rate) =>
           match dec.parseDecimal(rate)
           case None => None
           case Some(d) => Some(MessageExchangeRate(height, denom, d)))
    // transfer, message, complete_unbonding, complete_redelegation, mint
    // and any other type are only logged
    case _ => None
  }

  /** The messages of one half of a block, in event order. */
  function EmitEvents(height: nat, isBegin: bool, events: seq<BlockEvent>, dec: Decoders): (r: seq<Message>)
    ensures |r| <= |events|
    ensures forall i :: 0 <= i < |r| ==> !r[i].MessageTx? && r[i].height == height
    ensures forall i :: 0 <= i < |r| && r[i].HasBlockHalf() ==> r[i].isBegin == isBegin
  {
    if |events| == 0 then []
    else
      var front := EmitEvents(height, isBegin, events[..|events| - 1], dec);
      match ProcessEvent(height, isBegin, events[|events| - 1], dec)
      case None => front
      case Some(m) => front + [m]
  }

  /** Classifying a concatenation of event lists classifies each in turn. */
  lemma {:induction false} EmitEventsAppend(height: nat, isBegin: bool, a: seq<BlockEvent>, b: seq<BlockEvent>, dec: Decoders)
    ensures EmitEvents(height, isBegin, a + b, dec)
         == EmitEvents(height, isBegin, a, dec) + EmitEvents(height, isBegin, b, dec)
    decreases |b|
  {
    if |b| == 0 {
      assert a + b == a;
    } else {
      var b' := b[..|b| - 1];
      assert (a + b)[..|a + b| - 1] == a + b';
      assert (a + b)[|a + b| - 1] == b[|b| - 1];
      EmitEventsAppend(height, isBegin, a, b', dec);
    }
  }

  /** A single event contributes exactly what `process_event` issues. */
  lemma EmitEventsSingle(height: nat, isBegin: bool, e: BlockEvent, dec: Decoders)
    ensures EmitEvents(height, isBegin, [e], dec)
         == match ProcessEvent(height, isBegin, e, dec) case None => [] case Some(m) => [m]
  {
    assert [e][..0] == [];
  }

  /** The transactions of a block, an absent list being empty. */
  function BlockTxs(b: NewBlock): seq<Tx>
  {
    b.txs.GetOr([])
  }

  /** The end-block events of a block, an absent list being empty. */
  function EndEvents(b: NewBlock): seq<BlockEvent>
  {
    b.endEvents.GetOr([])
  }

  function TxMessages(txs: seq<Tx>): (r: seq<Message>)
    ensures |r| == |txs|
    ensures forall i :: 0 <= i < |txs| ==> r[i] == MessageTx(txs[i])
  {
    if |txs| == 0 then [] else TxMessages(txs[..|txs| - 1]) + [MessageTx(txs[|txs| - 1])]
  }

  /** `process_block_emit`: every transaction first, in list order, then the
      begin-block messages, then the end-block messages; never an error.
      Every block-event message carries the header height, and no message
      from the end block comes before one from the begin block. */
  function ProcessBlockEmit(b: NewBlock, dec: Decoders): (r: Result<seq<Message>, IntakeError>)
    ensures r.Ok?
    ensures |BlockTxs(b)| <= |r.value| <= |BlockTxs(b)| + |b.beginEvents| + |EndEvents(b)|
    ensures forall i :: 0 <= i < |BlockTxs(b)| ==> r.value[i] == MessageTx(BlockTxs(b)[i])
    ensures forall i :: |BlockTxs(b)| <= i < |r.value| ==>
      !r.value[i].MessageTx? && r.value[i].height == b.height
    ensures forall i, j ::
      (|BlockTxs(b)| <= i < j < |r.value| && r.value[i].HasBlockHalf() && r.value[j].HasBlockHalf())
      ==> r.value[i].isBegin || !r.value[j].isBegin
    ensures r.value == TxMessages(BlockTxs(b))
                     + EmitEvents(b.height, true, b.beginEvents, dec)
                     + EmitEvents(b.height, false, EndEvents(b), dec)
  {
    var txs := TxMessages(BlockTxs(b));
    var begin := EmitEvents(b.height, true, b.beginEvents, dec);
    var end := EmitEvents(b.height, false, EndEvents(b), dec);
    var all := txs + begin + end;
    assert forall i :: |txs| <= i < |txs| + |begin| ==> all[i] == begin[i - |txs|];
    assert forall i :: |txs| + |begin| <= i < |all| ==> all[i] == end[i - |txs| - |begin|];
    Ok(all)
  }

  /** Validator-set updates are only logged: they never change what a block
      emits, and neither does the chain id. */
  lemma ValidatorUpdatesEmitNothing(b: NewBlock, updates: seq<ValidatorUpdate>, chain: string, dec: Decoders)
    ensures ProcessBlockEmit(b.(validatorUpdates := updates, chainId := chain), dec)
         == ProcessBlockEmit(b, dec)
  {
  }

  /** A block with no transactions and no end-block events emits exactly the
      messages of its begin-block events, in order. */
  lemma BeginOnlyBlock(b: NewBlock, dec: Decoders)
    requires BlockTxs(b) == [] && EndEvents(b) == []
    ensures ProcessBlockEmit(b, dec).value == EmitEvents(b.height, true, b.beginEvents, dec)
  {
    assert TxMessages([]) == [];
  }

  /** A key present with a null value reads as absent. */
  lemma NullValueIsAbsent(attributes: map<string, Option<string>>, key: string)
    requires key in attributes && attributes[key] == None
    ensures GetRequiredKv(attributes, key) == None
  {
  }

  /** A liveness event whose `missed_blocks` is the decimal rendering of an
      in-range count, after any number of leading zeros, reports that count. */
  lemma LivenessMissedRoundTrip(height: nat, isBegin: bool, address: string, n: nat, k: nat, dec: Decoders)
    requires n < Text.UsizeLimit
    ensures ProcessEvent(height, isBegin,
              BlockEvent("liveness", map["address" := Some(address), "missed_blocks" := Some(Text.Zeros(k) + Text.ShowNat(n))]), dec)
         == Some(MessageLiveness(height, isBegin, address, n))
  {
    Text.ParseUsizeShowNat(n, k);
  }
}

=== FILE: peers_file.dfy ===
/** The peers-file report: a peer list file is read line by line, heading
    lines are skipped, every other line is a comma-separated list of
    `id@ip:port` triples, and each triple whose IP has a country in the
    MaxMind database becomes one tab-separated report row. */
module PeersFile {
  import opened Wrappers
  import Text

  /** `NodeTriple`. */
  datatype NodeTriple = NodeTriple(nodeId: string, ip: string, port: string)

  /** What `parse_triple` as written does with its input: no triple, a
      triple, or a panic on a slice whose start is past its end. */
  datatype TripleParse = NoTriple | Parsed(triple: NodeTriple) | Panics

  /** Some `@` comes before some `:` in `s`. */
  predicate AtBeforeColon(s: string) {
    exists i, j :: 0 <= i < j < |s| && s[i] == '@' && s[j] == ':'
  }

  /** `parse_triple` as written: the id runs to the first `@`, the IP from
      there to the last `:`, the port after it. When the last `:` comes
      before the first `@` the IP slice is reversed and the program panics. */
  function ParseTripleAsWritten(s: string): (r: TripleParse)
    ensures r.NoTriple? <==> '@' !in s || ':' !in s
    ensures r.Panics? <==> '@' in s && ':' in s && !AtBeforeColon(s)
  {
    match Text.FindFirst(s, '@')
    case None => NoTriple
    case Some(at) =>
      match Text.FindLast(s, ':')
      case None => NoTriple
      case Some(colon) =>
        if at + 1 <= colon then
          assert s[at] == '@' && s[colon] == ':';
          Parsed(NodeTriple(s[..at], s[at + 1..colon], s[colon + 1..]))
        else
          assert s[at] == '@' && s[colon] == ':';
          Panics
  }

  /** The input that makes it panic: the only `:` precedes the only `@`. */
  lemma ParseTripleAsWrittenPanics()
    ensures ParseTripleAsWritten("a:1@b") == Panics
  {
    var s := "a:1@b";
    assert s[1] == ':' && s[3] == '@';
    assert !AtBeforeColon(s);
  }

  /** `parse_triple` with the reversed case answered by `None`: a triple
      exactly when some `@` precedes some `:`, and then the id has no `@`,
      the port no `:`, and the three parts rebuild the input. */
  function ParseTriple(s: string): (r: Option<NodeTriple>)
    ensures r.Some? <==> AtBeforeColon(s)
    ensures r.Some? ==> '@' !in r.value.nodeId && ':' !in r.value.port
    ensures r.Some? ==> r.value.nodeId + "@" + r.value.ip + ":" + r.value.port == s
  {
    match Text.FindFirst(s, '@')
    case None => None
    case Some(at) =>
      match Text.FindLast(s, ':')
      case None => None
      case Some(colon) =>
        if at + 1 <= colon then
          assert s == s[..at] + "@" + s[at + 1..colon] + ":" + s[colon + 1..];
          assert '@' !in s[..at] by {
            forall j | 0 <= j < at
              ensures s[..at][j] != '@'
            {
              assert s[..at][j] == s[j];
            }
          }
          var port := s[colon + 1..];
          assert ':' !in port by {
            forall j | 0 <= j < |port|
              ensures port[j] != ':'
            {
              assert port[j] == s[colon + 1 + j];
            }
          }
          Some(NodeTriple(s[..at], s[at + 1..colon], s[colon + 1..]))
        else
          None
  }

  /** Wherever `parse_triple` as written does not panic, the two agree. */
  lemma ParseTripleAgrees(s: string)
    ensures ParseTripleAsWritten(s).NoTriple? ==> ParseTriple(s).None?
    ensures ParseTripleAsWritten(s).Parsed? ==> ParseTriple(s) == Some(ParseTripleAsWritten(s).triple)
    ensures ParseTripleAsWritten(s).Panics? ==> ParseTriple(s).None?
  {
  }

  /** Parsing a rendered triple gives it back, whenever the id has no `@`
      and the port no `:` (the IP may hold either). */
  lemma ParseTripleInverse(id: string, ip: string, port: string)
    requires '@' !in id && ':' !in port
    ensures ParseTriple(id + "@" + ip + ":" + port) == Some(NodeTriple(id, ip, port))
  {
    var s := id + "@" + ip + ":" + port;
    var colon := |id| + 1 + |ip|;
    assert s[|id|] == '@';
    assert forall j :: 0 <= j < |id| ==> s[j] == id[j];
    assert Text.FindFirst(s, '@') == Some(|id|);
    assert s[colon] == ':';
    assert forall j :: colon < j < |s| ==> s[j] == port[j - colon - 1];
    assert Text.FindLast(s, ':') == Some(colon);
    assert s[..|id|] == id;
    assert s[|id| + 1..colon] == ip;
    assert s[colon + 1..] == port;
  }

  /** The country part of a MaxMind country answer. */
  datatype CountryRecord = CountryRecord(
    names: Option<map<string, string>>,
    isoCode: Option<string>,
    isInEuropeanUnion: Option<bool>)

  /** Parsing the IP and looking it up: a parse or database failure, an
      answer without a country, or a country. */
  datatype CountryLookup = LookupFailed | NoCountry | Country(record: CountryRecord)

  /** The name column: the English name when the country has names (the
      placeholder `?noen?` without an English one), otherwise the ISO code,
      otherwise `NOISO`. */
  function CountryName(c: CountryRecord): string
  {
    match c.names
    case Some(names) => if "en" in names then names["en"] else "?noen?"
    case None => c.isoCode.GetOr("NOISO")
  }

  function ShowBool(b: bool): string { if b then "true" else "false" }

  const Header: string := "Peerid\tEU\tCountry"

  const HeadingPrefix: string := "Peerlist for"

  /** A piece of a line that yields a report row: it parses as a triple,
      its IP is not a bracketed IPv6 address, and the lookup finds a country. */
  predicate Reported(piece: string, lookup: string -> CountryLookup) {
    && ParseTriple(piece).Some?
    && !Text.StartsWith(ParseTriple(piece).value.ip, "[")
    && lookup(ParseTriple(piece).value.ip).Country?
  }

  /** The row of a reported piece: the piece as written, the EU flag
      (false when unknown) and the name column. */
  function Row(piece: string, lookup: string -> CountryLookup): string
    requires Reported(piece, lookup)
  {
    var c := lookup(ParseTriple(piece).value.ip).record;
    piece + "\t" + ShowBool(c.isInEuropeanUnion.GetOr(false)) + "\t" + CountryName(c)
  }

  /** The row a piece yields, if any. */
  function RowOf(piece: string, lookup: string -> CountryLookup): (r: Option<string>)
    ensures r.Some? <==> Reported(piece, lookup)
  {
    if Reported(piece, lookup) then Some(Row(piece, lookup)) else None
  }

  /** The values `f` yields along `xs`, in order (`filter_map`). */
  function Keep<T>(xs: seq<T>, f: T -> Option<string>): (r: seq<string>)
    ensures |r| <= |xs|
  {
    if |xs| == 0 then []
    else Keep(xs[..|xs| - 1], f) + (if f(xs[|xs| - 1]).Some? then [f(xs[|xs| - 1]).value] else [])
  }

  lemma {:induction false} KeepMembership<T>(xs: seq<T>, f: T -> Option<string>, y: string)
    ensures y in Keep(xs, f) <==> exists i :: 0 <= i < |xs| && f(xs[i]) == Some(y)
  {
    if |xs| > 0 {
      var front, last := xs[..|xs| - 1], xs[|xs| - 1];
      KeepMembership(front, f, y);
      var tail := if f(last).Some? then [f(last).value] else [];
      assert Keep(xs, f) == Keep(front, f) + tail;
      if y in Keep(front, f) {
        var i :| 0 <= i < |front| && f(front[i]) == Some(y);
        assert xs[i] == front[i];
      }
      if exists i :: 0 <= i < |xs| && f(xs[i]) == Some(y) {
        var i :| 0 <= i < |xs| && f(xs[i]) == Some(y);
        if i < |front| {
          assert front[i] == xs[i];
        }
      }
    }
  }

  lemma {:induction false} KeepAppend<T>(a: seq<T>, b: seq<T>, f: T -> Option<string>)
    ensures Keep(a + b, f) == Keep(a, f) + Keep(b, f)
  {
    if |b| == 0 {
      assert a + b == a;
    } else {
      var front, last := b[..|b| - 1], b[|b| - 1];
      assert (a + b)[..|a + b| - 1] == a + front;
      assert (a + b)[|a + b| - 1] == last;
      KeepAppend(a, front, f);
      var tail := if f(last).Some? then [f(last).value] else [];
      assert Keep(a + b, f) == Keep(a + front, f) + tail;
      assert Keep(b, f) == Keep(front, f) + tail;
    }
  }

  /** The rows of the pieces of one line, in order. */
  function PieceRows(pieces: seq<string>, lookup: string -> CountryLookup): (r: seq<string>)
    ensures |r| <= |pieces|
  {
    Keep(pieces, p => RowOf(p, lookup))
  }

  /** A row is reported exactly for a reported piece. */
  lemma PieceRowsMembership(pieces: seq<string>, lookup: string -> CountryLookup, row: string)
    ensures row in PieceRows(pieces, lookup) <==>
      exists i :: 0 <= i < |pieces| && Reported(pieces[i], lookup) && Row(pieces[i], lookup) == row
  {
    KeepMembership(pieces, p => RowOf(p, lookup), row);
  }

  lemma PieceRowsAppend(a: seq<string>, b: seq<string>, lookup: string -> CountryLookup)
    ensures PieceRows(a + b, lookup) == PieceRows(a, lookup) + PieceRows(b, lookup)
  {
    KeepAppend(a, b, p => RowOf(p, lookup));
  }

  /** The rows of one line: none for a heading line, otherwise those of its
      comma-separated pieces. */
  function LineRows(line: string, lookup: string -> CountryLookup): (r: seq<string>)
    ensures Text.StartsWith(line, HeadingPrefix) ==> r == []
    ensures !Text.StartsWith(line, HeadingPrefix) ==> |r| <= |Text.Split(line, ',')|
  {
    if Text.StartsWith(line, HeadingPrefix) then [] else PieceRows(Text.Split(line, ','), lookup)
  }

  /** A line made of separate triples reports each reported triple once, in
      order: its rows are those of the triples taken one by one. */
  lemma LineOfTriples(triples: seq<string>, lookup: string -> CountryLookup)
    requires |triples| >= 1
    requires forall i :: 0 <= i < |triples| ==> ',' !in triples[i]
    requires !Text.StartsWith(Text.Join(triples, ','), HeadingPrefix)
    ensures LineRows(Text.Join(triples, ','), lookup) == PieceRows(triples, lookup)
  {
    Text.SplitJoin(triples, ',');
  }

  /** The report: the header, then the rows of every line in file order. */
  function Report(lines: seq<string>, lookup: string -> CountryLookup): (r: seq<string>)
    ensures |r| >= 1 && r[0] == Header
  {
    [Header] + FileRows(lines, lookup)
  }

  function FileRows(lines: seq<string>, lookup: string -> CountryLookup): seq<string>
  {
    Concat(lines, l => LineRows(l, lookup))
  }

  /** The values `f` yields along `xs`, joined in order (`flat_map`). */
  function Concat<T>(xs: seq<T>, f: T -> seq<string>): seq<string>
  {
    if |xs| == 0 then [] else Concat(xs[..|xs| - 1], f) + f(xs[|xs| - 1])
  }

  lemma {:induction false} ConcatAppend<T>(a: seq<T>, b: seq<T>, f: T -> seq<string>)
    ensures Concat(a + b, f) == Concat(a, f) + Concat(b, f)
  {
    if |b| == 0 {
      assert a + b == a;
    } else {
      var front, last := b[..|b| - 1], b[|b| - 1];
      assert (a + b)[..|a + b| - 1] == a + front;
      assert (a + b)[|a + b| - 1] == last;
      ConcatAppend(a, front, f);
    }
  }

  /** Rows follow the file: the rows of two files read one after the other
      are the rows of the first followed by those of the second. */
  lemma FileRowsAppend(a: seq<string>, b: seq<string>, lookup: string -> CountryLookup)
    ensures FileRows(a + b, lookup) == FileRows(a, lookup) + FileRows(b, lookup)
  {
    ConcatAppend(a, b, l => LineRows(l, lookup));
  }

  // The report as the program prints it: `parse_triple` as written panics
  // on a piece whose last `:` precedes its first `@`, and the program stops
  // there with the rows printed so far.

  /** The rows printed so far, and whether the program has panicked. */
  datatype Printed = Printed(rows: seq<string>, panicked: bool)

  predicate PiecePanics(piece: string) {
    ParseTripleAsWritten(piece).Panics?
  }

  /** The rows of one line's pieces, piece by piece, until a piece panics. */
  function PieceRowsAsWritten(pieces: seq<string>, lookup: string -> CountryLookup): (r: Printed)
    ensures r.panicked <==> exists i :: 0 <= i < |pieces| && PiecePanics(pieces[i])
  {
    if |pieces| == 0 then Printed([], false)
    else
      var front, last := pieces[..|pieces| - 1], pieces[|pieces| - 1];
      var p := PieceRowsAsWritten(front, lookup);
      assert forall i :: 0 <= i < |front| ==> front[i] == pieces[i];
      if p.panicked then p
      else if PiecePanics(last) then Printed(p.rows, true)
      else
        assert forall i :: 0 <= i < |pieces| ==> !PiecePanics(pieces[i]) by {
          forall i | 0 <= i < |pieces| ensures !PiecePanics(pieces[i]) {
            if i < |front| { assert pieces[i] == front[i]; }
          }
        }
        Printed(p.rows + (if RowOf(last, lookup).Some? then [RowOf(last, lookup).value] else []), false)
  }

  /** With no panicking piece the program prints the rows of the corrected
      parser. */
  lemma {:induction false} PieceRowsAsWrittenAgrees(pieces: seq<string>, lookup: string -> CountryLookup)
    requires forall i :: 0 <= i < |pieces| ==> !PiecePanics(pieces[i])
    ensures PieceRowsAsWritten(pieces, lookup) == Printed(PieceRows(pieces, lookup), false)
  {
    if |pieces| > 0 {
      var front := pieces[..|pieces| - 1];
      assert forall i :: 0 <= i < |front| ==> front[i] == pieces[i];
      PieceRowsAsWrittenAgrees(front, lookup);
    }
  }

  /** At the first panicking piece the program stops: it has printed the
      rows of the pieces before it and nothing after. */
  lemma {:induction false} PieceRowsAsWrittenStops(pieces: seq<string>, lookup: string -> CountryLookup, i: nat)
    requires i < |pieces| && PiecePanics(pieces[i])
    requires forall j :: 0 <= j < i ==> !PiecePanics(pieces[j])
    ensures PieceRowsAsWritten(pieces, lookup) == Printed(PieceRows(pieces[..i], lookup), true)
  {
    var front := pieces[..|pieces| - 1];
    if i == |pieces| - 1 {
      assert forall j :: 0 <= j < |front| ==> front[j] == pieces[j];
      PieceRowsAsWrittenAgrees(front, lookup);
      assert pieces[..i] == front;
    } else {
      assert front[i] == pieces[i];
      assert forall j :: 0 <= j < i ==> front[j] == pieces[j];
      PieceRowsAsWrittenStops(front, lookup, i);
      assert front[..i] == pieces[..i];
    }
  }

  /** One line as printed: nothing for a heading line, otherwise its pieces
      until one panics. */
  function LineRowsAsWritten(line: string, lookup: string -> CountryLookup): (r: Printed)
    ensures Text.StartsWith(line, HeadingPrefix) ==> r == Printed([], false)
    ensures !r.panicked ==> r.rows == LineRows(line, lookup)
  {
    if Text.StartsWith(line, HeadingPrefix) then Printed([], false)
    else
      var pieces := Text.Split(line, ',');
      assert !PieceRowsAsWritten(pieces, lookup).panicked ==>
          PieceRowsAsWritten(pieces, lookup).rows == PieceRows(pieces, lookup) by {
        if !PieceRowsAsWritten(pieces, lookup).panicked {
          PieceRowsAsWrittenAgrees(pieces, lookup);
        }
      }
      PieceRowsAsWritten(pieces, lookup)
  }

  /** What `f` prints along `xs`, joined in order, up to and including the
      first element at which it panics. */
  function ConcatUntil<T>(xs: seq<T>, f: T -> Printed): (r: Printed)
    ensures r.panicked <==> exists i :: 0 <= i < |xs| && f(xs[i]).panicked
  {
    if |xs| == 0 then Printed([], false)
    else
      var front, last := xs[..|xs| - 1], xs[|xs| - 1];
      var p := ConcatUntil(front, f);
      assert forall i :: 0 <= i < |front| ==> front[i] == xs[i];
      if p.panicked then p
      else
        assert !f(last).panicked ==> forall i :: 0 <= i < |xs| ==> !f(xs[i]).panicked by {
          if !f(last).panicked {
            forall i | 0 <= i < |xs| ensures !f(xs[i]).panicked {
              if i < |front| { assert xs[i] == front[i]; }
            }
          }
        }
        Printed(p.rows + f(last).rows, f(last).panicked)
  }

  lemma {:induction false} ConcatUntilAgrees<T>(xs: seq<T>, f: T -> Printed, g: T -> seq<string>)
    requires forall i :: 0 <= i < |xs| ==> !f(xs[i]).panicked && f(xs[i]).rows == g(xs[i])
    ensures ConcatUntil(xs, f) == Printed(Concat(xs, g), false)
  {
    if |xs| > 0 {
      var front := xs[..|xs| - 1];
      assert forall i :: 0 <= i < |front| ==> front[i] == xs[i];
      ConcatUntilAgrees(front, f, g);
    }
  }

  /** The rows of a file as printed: line by line, until a line panics. */
  function FileRowsAsWritten(lines: seq<string>, lookup: string -> CountryLookup): (r: Printed)
    ensures r.panicked <==> exists i :: 0 <= i < |lines| && LineRowsAsWritten(lines[i], lookup).panicked
  {
    ConcatUntil(lines, l => LineRowsAsWritten(l, lookup))
  }

  /** With no panicking piece anywhere the file prints the corrected rows. */
  lemma FileRowsAsWrittenAgrees(lines: seq<string>, lookup: string -> CountryLookup)
    requires forall i :: 0 <= i < |lines| ==> !LineRowsAsWritten(lines[i], lookup).panicked
    ensures FileRowsAsWritten(lines, lookup) == Printed(FileRows(lines, lookup), false)
  {
    ConcatUntilAgrees(lines, l => LineRowsAsWritten(l, lookup), l => LineRows(l, lookup));
  }

  /** The program's output: the header, then the rows until a panic. */
  function ReportAsWritten(lines: seq<string>, lookup: string -> CountryLookup): (r: Printed)
    ensures |r.rows| >= 1 && r.rows[0] == Header
    ensures r.panicked <==> exists i :: 0 <= i < |lines| && LineRowsAsWritten(lines[i], lookup).panicked
  {
    var p := FileRowsAsWritten(lines, lookup);
    Printed([Header] + p.rows, p.panicked)
  }

  /** A file on which the program's parser never panics prints exactly the
      report of the corrected parser. */
  lemma ReportAsWrittenAgrees(lines: seq<string>, lookup: string -> CountryLookup)
    requires forall i :: 0 <= i < |lines| ==> !LineRowsAsWritten(lines[i], lookup).panicked
    ensures ReportAsWritten(lines, lookup) == Printed(Report(lines, lookup), false)
  {
    FileRowsAsWrittenAgrees(lines, lookup);
  }
}

=== FILE: rpc_crawler.dfy ===
/** The RPC crawler's pass over a node's `net_info`: the peers advertising
    an RPC address outside five private prefixes, and the peers listening
    outside them, rendered `id@host:port`. The lists are only logged. */
module RpcCrawler {
  import opened Wrappers
  import Text
  import PeersFile

  /** The parts of a `net_info` peer read. */
  datatype Peer = Peer(id: string, listenAddr: string, rpcAddress: string)

  datatype RpcError = ClientFailed | NetInfoFailed

  /** The two lists of one pass. */
  datatype Crawl = Crawl(openRpc: seq<string>, openPeers: seq<string>)

  const PrivatePrefixes: seq<string> := ["tcp://127.0.0.1", "tcp://0.0.0.0", "tcp://10.", "tcp://192.168.", "tcp://172.16."]

  const Scheme: string := "tcp://"

  /** An address under one of the five literal prefixes. */
  predicate IsPrivate(addr: string) {
    exists i :: 0 <= i < |PrivatePrefixes| && Text.StartsWith(addr, PrivatePrefixes[i])
  }

  /** `id@` and the listen address without its scheme. */
  function PeerString(p: Peer): (r: string)
    ensures |r| > |p.id| && r[..|p.id| + 1] == p.id + "@"
    ensures Text.StartsWith(p.listenAddr, Scheme) ==> Scheme + r[|p.id| + 1..] == p.listenAddr
    ensures !Text.StartsWith(p.listenAddr, Scheme) ==> r[|p.id| + 1..] == p.listenAddr
  {
    p.id + "@" + Text.StripPrefixOrSelf(p.listenAddr, Scheme)
  }

  /** The advertised RPC addresses that are not private, unchanged and in
      peer order. */
  function OpenRpc(peers: seq<Peer>): (r: seq<string>)
    ensures |r| <= |peers|
  {
    if |peers| == 0 then []
    else
      var last := peers[|peers| - 1];
      OpenRpc(peers[..|peers| - 1]) + (if IsPrivate(last.rpcAddress) then [] else [last.rpcAddress])
  }

  /** The peers listening outside the private prefixes, rendered, in peer order. */
  function OpenPeers(peers: seq<Peer>): (r: seq<string>)
    ensures |r| <= |peers|
  {
    if |peers| == 0 then []
    else
      var last := peers[|peers| - 1];
      OpenPeers(peers[..|peers| - 1]) + (if IsPrivate(last.listenAddr) then [] else [PeerString(last)])
  }

  /** An address is listed exactly when some peer advertises it and it is
      not private. */
  lemma {:induction false} OpenRpcMembership(peers: seq<Peer>, addr: string)
    ensures addr in OpenRpc(peers) <==> !IsPrivate(addr) && exists i :: 0 <= i < |peers| && peers[i].rpcAddress == addr
  {
    if |peers| > 0 {
      var front, last := peers[..|peers| - 1], peers[|peers| - 1];
      OpenRpcMembership(front, addr);
      assert OpenRpc(peers) == OpenRpc(front) + (if IsPrivate(last.rpcAddress) then [] else [last.rpcAddress]);
      if exists i :: 0 <= i < |front| && front[i].rpcAddress == addr {
        var i :| 0 <= i < |front| && front[i].rpcAddress == addr;
        assert peers[i] == front[i];
      }
      if exists i :: 0 <= i < |peers| && peers[i].rpcAddress == addr {
        var i :| 0 <= i < |peers| && peers[i].rpcAddress == addr;
        if i < |front| {
          assert front[i] == peers[i];
        }
      }
    }
  }

  /** A rendered peer is listed exactly when some peer listening outside the
      private prefixes renders to it. */
  lemma {:induction false} OpenPeersMembership(peers: seq<Peer>, rendered: string)
    ensures rendered in OpenPeers(peers) <==>
      exists i :: 0 <= i < |peers| && !IsPrivate(peers[i].listenAddr) && PeerString(peers[i]) == rendered
  {
    if |peers| > 0 {
      var front, last := peers[..|peers| - 1], peers[|peers| - 1];
      OpenPeersMembership(front, rendered);
      assert OpenPeers(peers) == OpenPeers(front) + (if IsPrivate(last.listenAddr) then [] else [PeerString(last)]);
      if exists i :: 0 <= i < |front| && !IsPrivate(front[i].listenAddr) && PeerString(front[i]) == rendered {
        var i :| 0 <= i < |front| && !IsPrivate(front[i].listenAddr) && PeerString(front[i]) == rendered;
        assert peers[i] == front[i];
      }
      if exists i :: 0 <= i < |peers| && !IsPrivate(peers[i].listenAddr) && PeerString(peers[i]) == rendered {
        var i :| 0 <= i < |peers| && !IsPrivate(peers[i].listenAddr) && PeerString(peers[i]) == rendered;
        if i < |front| {
          assert front[i] == peers[i];
        }
      }
    }
  }

  /** Both lists follow the peer list: those of two peer lists one after
      the other are those of the first followed by those of the second. */
  lemma {:induction false} OpenRpcAppend(a: seq<Peer>, b: seq<Peer>)
    ensures OpenRpc(a + b) == OpenRpc(a) + OpenRpc(b)
  {
    if |b| == 0 {
      assert a + b == a;
    } else {
      var front, last := b[..|b| - 1], b[|b| - 1];
      assert (a + b)[..|a + b| - 1] == a + front;
      assert (a + b)[|a + b| - 1] == last;
      OpenRpcAppend(a, front);
      var tail := if IsPrivate(last.rpcAddress) then [] else [last.rpcAddress];
      assert OpenRpc(a + b) == OpenRpc(a + front) + tail;
      assert OpenRpc(b) == OpenRpc(front) + tail;
    }
  }

  lemma {:induction false} OpenPeersAppend(a: seq<Peer>, b: seq<Peer>)
    ensures OpenPeers(a + b) == OpenPeers(a) + OpenPeers(b)
  {
    if |b| == 0 {
      assert a + b == a;
    } else {
      var front, last := b[..|b| - 1], b[|b| - 1];
      assert (a + b)[..|a + b| - 1] == a + front;
      assert (a + b)[|a + b| - 1] == last;
      OpenPeersAppend(a, front);
      var tail := if IsPrivate(last.listenAddr) then [] else [PeerString(last)];
      assert OpenPeers(a + b) == OpenPeers(a + front) + tail;
      assert OpenPeers(b) == OpenPeers(front) + tail;
    }
  }

  /** A peer listening on `tcp://ip:port` renders as a triple the peers
      file parser reads back, whenever its id has no `@` and the port no `:`. */
  lemma PeerStringParses(id: string, ip: string, port: string, rpc: string)
    requires '@' !in id && ':' !in port
    ensures PeerString(Peer(id, Scheme + ip + ":" + port, rpc)) == id + "@" + ip + ":" + port
    ensures PeersFile.ParseTriple(PeerString(Peer(id, Scheme + ip + ":" + port, rpc)))
      == Some(PeersFile.NodeTriple(id, ip, port))
  {
    var listen := Scheme + ip + ":" + port;
    assert Text.StartsWith(listen, Scheme);
    assert listen[|Scheme|..] == ip + ":" + port;
    assert id + "@" + (ip + ":" + port) == id + "@" + ip + ":" + port;
    PeersFile.ParseTripleInverse(id, ip, port);
  }

  /** Only `172.16.` of the 172.16.0.0/12 private block is excluded: an
      address in 172.17.0.0/16 counts as open. */
  lemma DockerBridgeCountsAsOpen()
    ensures !IsPrivate("tcp://172.17.0.2:26656")
  {
    var a := "tcp://172.17.0.2:26656";
    assert a[6] == '1' && a[8] == '2' && a[9] == '.' && a[10] == '1' && a[11] == '7';
  }

  /** One pass: nothing when no client could be built or `net_info` failed,
      otherwise both lists. */
  function RunTask(client: Result<(), RpcError>, netInfo: Result<seq<Peer>, RpcError>): (r: Option<Crawl>)
    ensures r.None? <==> client.Err? || netInfo.Err?
    ensures r.Some? ==> |r.value.openRpc| <= |netInfo.value| && |r.value.openPeers| <= |netInfo.value|
    ensures r.Some? ==> forall a :: a in r.value.openRpc ==> !IsPrivate(a)
    ensures r.Some? ==> r.value == Crawl(OpenRpc(netInfo.value), OpenPeers(netInfo.value))
  {
    match client
    case Err(_) => None
    case Ok(_) =>
      match netInfo
      case Err(_) => None
      case Ok(peers) =>
        forall a | a in OpenRpc(peers)
          ensures !IsPrivate(a)
        {
          OpenRpcMembership(peers, a);
        }
        Some(Crawl(OpenRpc(peers), OpenPeers(peers)))
  }
}

=== FILE: shared_state.dfy ===
/** The shared network state every producer task writes under one lock:
    the node registry from the address book, its two reverse indices, the
    work queues of IPs still to enrich, and the ASN and geo enrichment
    tables with their IP indices. */
module SharedState {
  import opened Wrappers
  import Clock
  import Versioned

  /** A node's `id@ip:port` address (`NodeIDIPPort`). */
  datatype NodeIdIpPort = NodeIdIpPort(id: string, ip: string, port: nat)

  /** An address-book entry (`NodeAddr`): the address, plus the book's
      remaining bookkeeping about it, carried unread. */
  datatype NodeAddr = NodeAddr(addr: NodeIdIpPort, bookkeeping: string)

  /** `GeoID`, a `u32`. */
  type GeoId = x: int | 0 <= x < 0x1_0000_0000

  /** What the origin lookup says about one IP. */
  datatype IpAsnMapping = IpAsnMapping(asn: string, range: string, country: string, network: string, lastUpdated: Clock.Timestamp)

  /** What the details lookup says about one ASN. */
  datatype Asn = Asn(asn: string, country: string, net: string, desc: string, lastUpdated: Clock.Timestamp)

  datatype GeoCity = GeoCity(geonameId: GeoId, name: Option<string>, country: GeoId, continent: GeoId, lastUpdated: Clock.Timestamp)

  datatype GeoCountry = GeoCountry(
    geonameId: GeoId,
    name: Option<string>,
    isInEuropeanUnion: Option<bool>,
    isoCode: Option<string>,
    lastUpdated: Clock.Timestamp)

  datatype GeoContinent = GeoContinent(geonameId: GeoId, name: Option<string>, code: Option<string>, lastUpdated: Clock.Timestamp)

  datatype State = State(
    lastSaved: Clock.Timestamp,
    nodes: map<string, NodeAddr>,
    ipIpAddr: map<string, set<NodeIdIpPort>>,
    idIpAddr: map<string, set<NodeIdIpPort>>,
    newNodes: set<string>,
    newIpsBgp: set<string>,
    newIpsGeo: set<string>,
    ipAsn: map<string, IpAsnMapping>,
    asnIp: map<string, set<string>>,
    asn: map<string, Asn>,
    geoCity: map<GeoId, GeoCity>,
    geoCountry: map<GeoId, GeoCountry>,
    geoContinent: map<GeoId, GeoContinent>,
    geoIpCity: map<string, GeoId>,
    geoIpCountry: map<string, GeoId>,
    geoIpContinent: map<string, GeoId>,
    geoCityIp: map<GeoId, set<string>>,
    geoCountryIp: map<GeoId, set<string>>,
    geoContinentIp: map<GeoId, set<string>>)

  /** `State::new`: every table and queue empty, never saved. */
  function New(): (s: State)
    ensures s.lastSaved == Clock.NeverSaved
    ensures s.nodes == map[] && s.ipIpAddr == map[] && s.idIpAddr == map[]
    ensures s.newNodes == {} && s.newIpsBgp == {} && s.newIpsGeo == {}
    ensures s.ipAsn == map[] && s.asnIp == map[] && s.asn == map[]
    ensures s.geoCity == map[] && s.geoCountry == map[] && s.geoContinent == map[]
    ensures s.geoIpCity == map[] && s.geoIpCountry == map[] && s.geoIpContinent == map[]
    ensures s.geoCityIp == map[] && s.geoCountryIp == map[] && s.geoContinentIp == map[]
  {
    State(Clock.NeverSaved, map[], map[], map[], {}, {}, {}, map[], map[], map[],
          map[], map[], map[], map[], map[], map[], map[], map[], map[])
  }

  /** `a` and `b` agree on everything but `last_saved`. */
  predicate SameButLastSaved(a: State, b: State) {
    a.(lastSaved := b.lastSaved) == b
  }

  /** Start-up: the checkpointed state when the file restores, otherwise a
      new one. */
  function RestoreOrNew(f: Versioned.CheckpointFile<State>): (s: State)
    ensures f.Document? && f.tag == Versioned.Version1Tag ==> s == f.body
    ensures !(f.Document? && f.tag == Versioned.Version1Tag) ==> s == New()
  {
    Versioned.RestoreOr(f, New())
  }

  /** A fresh start restored from its own checkpoint is the fresh start. */
  lemma RestoreNewCheckpoint()
    ensures RestoreOrNew(Versioned.Save(New())) == New()
  {
  }
}

=== FILE: state_checkpoint.dfy ===
/** One round of the checkpoint task: copy the state under the lock, stamp
    the copy with the current time, write it out under its version tag,
    and, only if the write succeeded, stamp the live state too. The lock is
    released in between, so the live state at the second step may already
    differ from the copy; both are inputs. */
module StateCheckpoint {
  import Clock
  import Versioned
  import SharedState
  import LegacyState

  /** What a round hands to `fs::write`, and the live state after it. */
  datatype Round<S> = Round(written: Versioned.CheckpointFile<S>, live: S)

  /** The crate task's round: `atClone` is the live state when it is copied,
      `atCommit` the live state when the lock is taken again. The document
      written is the copy with `last_saved` set to `now`; on success the
      live state gets the same stamp and nothing else, on failure it is
      left exactly as found. */
  function CheckpointRound(atClone: SharedState.State, atCommit: SharedState.State, now: Clock.Timestamp, writeOk: bool): (r: Round<SharedState.State>)
    ensures r.written.Document? && r.written.tag == Versioned.Version1Tag
    ensures r.written.body.lastSaved == now && SharedState.SameButLastSaved(r.written.body, atClone)
    ensures writeOk ==> r.live.lastSaved == now && SharedState.SameButLastSaved(r.live, atCommit)
    ensures !writeOk ==> r.live == atCommit
  {
    var snapshot := atClone.(lastSaved := now);
    Round(Versioned.Save(snapshot), if writeOk then atCommit.(lastSaved := now) else atCommit)
  }

  /** With no writer in between, a successful round leaves the live state
      equal to what a restart would restore from the file it wrote. */
  lemma CheckpointMatchesLive(s: SharedState.State, now: Clock.Timestamp)
    ensures var r := CheckpointRound(s, s, now, true);
      SharedState.RestoreOrNew(r.written) == r.live
  {
  }

  /** The older task's iteration, over the earlier schema: the same round,
      then the sleep rule, with the time spent measured from the start of
      the iteration to the moment of stamping. When it sleeps, it wakes one
      period after the iteration began. */
  function LegacyIteration(
    atClone: LegacyState.State, atCommit: LegacyState.State,
    start: Clock.Timestamp, now: Clock.Timestamp, writeOk: bool,
    period: Clock.Duration): (r: (Round<LegacyState.State>, Clock.SleepPlan))
    ensures r.0.written.Document? && r.0.written.tag == Versioned.Version1Tag
    ensures r.0.written.body.lastSaved == now && LegacyState.SameButLastSaved(r.0.written.body, atClone)
    ensures writeOk ==> r.0.live.lastSaved == now && LegacyState.SameButLastSaved(r.0.live, atCommit)
    ensures !writeOk ==> r.0.live == atCommit
    ensures r.1.SleepFor? ==> now + r.1.span == start + period
    ensures r.1.NoRest? <==> period - (now - start) <= Clock.NanosPerSecond
    ensures !r.1.Abort?
  {
    var snapshot := atClone.(lastSaved := now);
    var round := Round(Versioned.Save(snapshot), if writeOk then atCommit.(lastSaved := now) else atCommit);
    (round, Clock.SleepAfterRound(period, now - start))
  }
}

=== FILE: text.dfy ===
/** The handful of Rust `str` operations the core relies on, stated over
    `seq<char>`: `starts_with`, `strip_prefix`, `find`/`rfind` of one
    character, `split` on one character, `trim`, and `parse::<usize>`. Every
    separator the core searches for is ASCII, so byte offsets and character
    offsets coincide and no UTF-8 boundary can be cut. */
module Text {
  import opened Wrappers

  /** `s.starts_with(prefix)`. */
  predicate StartsWith(s: string, prefix: string) {
    |prefix| <= |s| && s[..|prefix|] == prefix
  }

  /** `s.strip_prefix(prefix).unwrap_or(s)`. */
  function StripPrefixOrSelf(s: string, prefix: string): (r: string)
    ensures StartsWith(s, prefix) ==> prefix + r == s
    ensures !StartsWith(s, prefix) ==> r == s
  {
    if StartsWith(s, prefix) then s[|prefix|..] else s
  }

  /** `s.find(c)`: the offset of the first `c`. */
  function FindFirst(s: string, c: char): (r: Option<nat>)
    ensures r.None? ==> forall j :: 0 <= j < |s| ==> s[j] != c
    ensures r.Some? ==> r.value < |s| && s[r.value] == c
    ensures r.Some? ==> forall j :: 0 <= j < r.value ==> s[j] != c
  {
    if |s| == 0 then None
    else if s[0] == c then Some(0)
    else
      match FindFirst(s[1..], c)
      case None => None
      case Some(i) => Some(i + 1)
  }

  /** `s.rfind(c)`: the offset of the last `c`. */
  function FindLast(s: string, c: char): (r: Option<nat>)
    ensures r.None? ==> forall j :: 0 <= j < |s| ==> s[j] != c
    ensures r.Some? ==> r.value < |s| && s[r.value] == c
    ensures r.Some? ==> forall j :: r.value < j < |s| ==> s[j] != c
  {
    if |s| == 0 then None
    else if s[|s| - 1] == c then Some(|s| - 1)
    else FindLast(s[..|s| - 1], c)
  }

  /** Glue `parts` back together with `sep` between neighbours. */
  function Join(parts: seq<string>, sep: char): string
  {
    if |parts| == 0 then ""
    else if |parts| == 1 then parts[0]
    else parts[0] + [sep] + Join(parts[1..], sep)
  }

  /** `s.split(sep).collect::<Vec<_>>()`: never empty, no piece holds `sep`,
      and joining the pieces with `sep` gives `s` back. */
  function Split(s: string, sep: char): (parts: seq<string>)
    ensures |parts| >= 1
    ensures forall i :: 0 <= i < |parts| ==> sep !in parts[i]
    ensures Join(parts, sep) == s
    decreases |s|
  {
    match FindFirst(s, sep)
    case None => [s]
    case Some(i) =>
      var rest := Split(s[i + 1..], sep);
      assert s == s[..i] + [sep] + s[i + 1..];
      assert ([s[..i]] + rest)[1..] == rest;
      [s[..i]] + rest
  }

  /** Splitting a join of separator-free pieces recovers the pieces. */
  lemma {:induction false} SplitJoin(parts: seq<string>, sep: char)
    requires |parts| >= 1
    requires forall i :: 0 <= i < |parts| ==> sep !in parts[i]
    ensures Split(Join(parts, sep), sep) == parts
  {
    if |parts| == 1 {
      assert sep !in Join(parts, sep);
    } else {
      var s := Join(parts, sep);
      var tail := Join(parts[1..], sep);
      assert s == parts[0] + [sep] + tail;
      var p := |parts[0]|;
      assert s[p] == sep;
      assert forall j :: 0 <= j < p ==> s[j] == parts[0][j];
      assert forall j :: 0 <= j < p ==> s[j] != sep;
      assert FindFirst(s, sep) == Some(p);
      assert s[..p] == parts[0];
      assert s[p + 1..] == tail;
      SplitJoin(parts[1..], sep);
      assert [parts[0]] + parts[1..] == parts;
    }
  }

  /** Text without the separator splits into itself alone. */
  lemma SplitAbsent(s: string, sep: char)
    requires sep !in s
    ensures Split(s, sep) == [s]
  {
    assert FindFirst(s, sep).None?;
  }

  /** The number of pieces is one more than the number of separators. */
  lemma {:induction false} SplitCount(s: string, sep: char)
    ensures |Split(s, sep)| == multiset(s)[sep] + 1
    decreases |s|
  {
    match FindFirst(s, sep)
    case None =>
      assert sep !in s;
    case Some(i) =>
      var head, rest := s[..i], s[i + 1..];
      assert Split(s, sep) == [head] + Split(rest, sep);
      SplitCount(rest, sep);
      assert s == head + [sep] + rest;
      assert multiset(s) == multiset(head) + multiset{sep} + multiset(rest);
      assert forall j :: 0 <= j < |head| ==> head[j] != sep;
      assert multiset(head)[sep] == 0;
  }

  /** `char::is_whitespace`: the Unicode White_Space property. */
  predicate IsWhitespace(c: char) {
    || ('\t' <= c <= '\r')
    || c == ' '
    || c == '\U{0085}'
    || c == '\U{00A0}'
    || c == '\U{1680}'
    || ('\U{2000}' <= c <= '\U{200A}')
    || c == '\U{2028}'
    || c == '\U{2029}'
    || c == '\U{202F}'
    || c == '\U{205F}'
    || c == '\U{3000}'
  }

  /** `s.trim_start()`: the longest suffix of `s` not starting with whitespace. */
  function TrimStart(s: string): (r: string)
    ensures |r| <= |s| && r == s[|s| - |r|..]
    ensures forall j :: 0 <= j < |s| - |r| ==> IsWhitespace(s[j])
    ensures |r| > 0 ==> !IsWhitespace(r[0])
  {
    if |s| > 0 && IsWhitespace(s[0]) then TrimStart(s[1..]) else s
  }

  /** `s.trim_end()`: the longest prefix of `s` not ending with whitespace. */
  function TrimEnd(s: string): (r: string)
    ensures |r| <= |s| && r == s[..|r|]
    ensures forall j :: |r| <= j < |s| ==> IsWhitespace(s[j])
    ensures |r| > 0 ==> !IsWhitespace(r[|r| - 1])
  {
    if |s| > 0 && IsWhitespace(s[|s| - 1]) then TrimEnd(s[..|s| - 1]) else s
  }

  /** `s.trim()`: `s` less its leading and trailing whitespace. The result is
      the block `s[lead..lead + |r|]`, and everything outside it is
      whitespace. */
  function Trim(s: string): (r: string)
    ensures |r| > 0 ==> !IsWhitespace(r[0]) && !IsWhitespace(r[|r| - 1])
    ensures |r| <= |s|
    ensures var lead := |s| - |TrimStart(s)|;
      && lead + |r| <= |s|
      && r == s[lead..lead + |r|]
      && (forall j :: 0 <= j < lead ==> IsWhitespace(s[j]))
      && (forall j :: lead + |r| <= j < |s| ==> IsWhitespace(s[j]))
  {
    var t := TrimStart(s);
    var r := TrimEnd(t);
    TrimShape(s, t, r);
    r
  }

  /** The block-of-`s` shape of a suffix-then-prefix cut. */
  lemma TrimShape(s: string, t: string, r: string)
    requires |t| <= |s| && t == s[|s| - |t|..]
    requires |r| <= |t| && r == t[..|r|]
    requires forall j :: |r| <= j < |t| ==> IsWhitespace(t[j])
    ensures var lead := |s| - |t|;
      && lead + |r| <= |s|
      && r == s[lead..lead + |r|]
      && (forall j :: lead + |r| <= j < |s| ==> IsWhitespace(s[j]))
  {
    var lead := |s| - |t|;
    assert t == s[lead..];
    assert r == t[..|r|];
    assert t[..|r|] == s[lead..lead + |r|];
    forall j | lead + |r| <= j < |s|
      ensures IsWhitespace(s[j])
    {
      assert s[j] == t[j - lead];
    }
  }

  /** Text with no whitespace at either end is left alone by `trim`. */
  lemma TrimKeepsTrimmed(s: string)
    requires |s| > 0 ==> !IsWhitespace(s[0]) && !IsWhitespace(s[|s| - 1])
    ensures Trim(s) == s
  {
  }

  /** Leading whitespace makes no difference to `trim_start`. */
  lemma {:induction false} TrimStartSkips(w: string, y: string)
    requires forall i :: 0 <= i < |w| ==> IsWhitespace(w[i])
    ensures TrimStart(w + y) == TrimStart(y)
  {
    if |w| > 0 {
      assert (w + y)[1..] == w[1..] + y;
      TrimStartSkips(w[1..], y);
    } else {
      assert w + y == y;
    }
  }

  /** Trailing whitespace makes no difference to `trim_end`. */
  lemma {:induction false} TrimEndSkips(y: string, w: string)
    requires forall i :: 0 <= i < |w| ==> IsWhitespace(w[i])
    ensures TrimEnd(y + w) == TrimEnd(y)
  {
    if |w| > 0 {
      assert (y + w)[..|y + w| - 1] == y + w[..|w| - 1];
      TrimEndSkips(y, w[..|w| - 1]);
    } else {
      assert y + w == y;
    }
  }

  /** Trimming a space-padded field gives the field back. */
  lemma TrimPadded(x: string)
    requires |x| > 0 ==> !IsWhitespace(x[0]) && !IsWhitespace(x[|x| - 1])
    ensures Trim(" " + x + " ") == x
  {
    assert " " + x + " " == " " + (x + " ");
    TrimStartSkips(" ", x + " ");
    if |x| == 0 {
      TrimStartSkips(" ", "");
      assert x + " " == " " + "";
    } else {
      assert TrimStart(x + " ") == x + " ";
      TrimEndSkips(x, " ");
    }
  }

  predicate IsDigit(c: char) {
    '0' <= c <= '9'
  }

  predicate AllDigits(s: string) {
    forall i :: 0 <= i < |s| ==> IsDigit(s[i])
  }

  function DigitValue(c: char): nat
    requires IsDigit(c)
  {
    c as int - '0' as int
  }

  function DigitChar(d: nat): (c: char)
    requires d < 10
    ensures IsDigit(c) && DigitValue(c) == d
  {
    ('0' as int + d) as char
  }

  /** The value of a run of decimal digits, most significant first. */
  function DigitsValue(s: string): nat
    requires AllDigits(s)
  {
    if |s| == 0 then 0 else 10 * DigitsValue(s[..|s| - 1]) + DigitValue(s[|s| - 1])
  }

  /** The decimal rendering of `n`, without leading zeros. */
  function ShowNat(n: nat): (s: string)
    ensures |s| >= 1 && AllDigits(s)
  {
    if n < 10 then [DigitChar(n)] else ShowNat(n / 10) + [DigitChar(n % 10)]
  }

  /** 2^64: `usize` on the 64-bit targets the service runs on. */
  const UsizeLimit: nat := 0x1_0000_0000_0000_0000

  /** `s.parse::<usize>()`: an optional `+`, then one or more ASCII digits,
      whose value must fit in 64 bits. An empty string, a lone `+`, a `-`
      sign, any other character and an overflowing value are errors. */
  function ParseUsize(s: string): (r: Option<nat>)
    ensures r.Some? ==> r.value < UsizeLimit
    ensures |s| == 0 || s == "+" ==> r.None?
    ensures (exists i :: 0 <= i < |s| && !IsDigit(s[i]) && (i > 0 || s[0] != '+')) ==> r.None?
  {
    if |s| == 0 then None
    else
      var digits := if s[0] == '+' then s[1..] else s;
      if |digits| == 0 || !AllDigits(digits) then None
      else
        var v := DigitsValue(digits);
        if v < UsizeLimit then Some(v) else None
  }

  lemma {:induction false} ShowNatValue(n: nat)
    ensures DigitsValue(ShowNat(n)) == n
  {
    if n >= 10 {
      ShowNatValue(n / 10);
      var s := ShowNat(n);
      assert s[..|s| - 1] == ShowNat(n / 10);
    }
  }

  /** A run of `k` zero digits. */
  function Zeros(k: nat): (z: string)
    ensures |z| == k && AllDigits(z)
  {
    seq(k, _ => '0')
  }

  lemma {:induction false} ZerosValue(k: nat)
    ensures DigitsValue(Zeros(k)) == 0
  {
    if k > 0 {
      assert Zeros(k)[..k - 1] == Zeros(k - 1);
      ZerosValue(k - 1);
    }
  }

  /** Leading zeros do not change the value of a run of digits. */
  lemma {:induction false} LeadingZerosValue(k: nat, d: string)
    requires AllDigits(d)
    ensures AllDigits(Zeros(k) + d) && DigitsValue(Zeros(k) + d) == DigitsValue(d)
  {
    var z := Zeros(k) + d;
    assert AllDigits(z) by {
      forall i | 0 <= i < |z| ensures IsDigit(z[i]) {
        if i >= k { assert z[i] == d[i - k]; }
      }
    }
    if |d| == 0 {
      assert z == Zeros(k);
      ZerosValue(k);
    } else {
      var front := d[..|d| - 1];
      assert z[..|z| - 1] == Zeros(k) + front;
      assert z[|z| - 1] == d[|d| - 1];
      LeadingZerosValue(k, front);
    }
  }

  /** A run of digits, with or without a leading `+`, parses to its value
      when that fits in 64 bits. */
  lemma ParseDigits(d: string)
    requires |d| >= 1 && AllDigits(d)
    ensures ParseUsize(d) == (if DigitsValue(d) < UsizeLimit then Some(DigitsValue(d)) else None)
    ensures ParseUsize("+" + d) == ParseUsize(d)
  {
    assert d[0] != '+' by { assert IsDigit(d[0]); }
    assert ("+" + d)[1..] == d;
  }

  /** Parsing the rendering of an in-range count, after any number of
      leading zeros and with or without a leading `+`, gives the count. */
  lemma ParseUsizeShowNat(n: nat, k: nat)
    requires n < UsizeLimit
    ensures ParseUsize(Zeros(k) + ShowNat(n)) == Some(n)
    ensures ParseUsize("+" + Zeros(k) + ShowNat(n)) == Some(n)
  {
    ShowNatValue(n);
    LeadingZerosValue(k, ShowNat(n));
    var z := Zeros(k) + ShowNat(n);
    ParseDigits(z);
    assert "+" + Zeros(k) + ShowNat(n) == "+" + z;
  }

  /** A value of 2^64 or more is rejected even though it is all digits,
      however many leading zeros it has and with or without a `+`. */
  lemma ParseUsizeOverflow(n: nat, k: nat)
    requires n >= UsizeLimit
    ensures ParseUsize(Zeros(k) + ShowNat(n)) == None
    ensures ParseUsize("+" + Zeros(k) + ShowNat(n)) == None
  {
    ShowNatValue(n);
    LeadingZerosValue(k, ShowNat(n));
    var z := Zeros(k) + ShowNat(n);
    ParseDigits(z);
    assert "+" + Zeros(k) + ShowNat(n) == "+" + z;
  }
}

=== FILE: validator_actor.dfy ===
/** The validator actor's registry: one record per operator address, built
    from the staking validator list, and the two price-alert handlers that
    bump a counter on one record. */
module ValidatorActor {
  import opened Wrappers
  import Clock
  import Index
  import ObserverIntake

  /** The parts of a staking validator the actor keys on; the remaining
      descriptor fields are carried in `tokens` and `details` unread. */
  datatype Validator = Validator(
    operatorAddress: string,
    consensusPubkey: string,
    moniker: string,
    tokens: string,
    details: string)

  /** `ValidatorDetails`: the validator plus the actor's own bookkeeping. */
  datatype ValidatorDetails = ValidatorDetails(
    validator: Validator,
    firstSeenDate: Clock.Timestamp,
    lastUpdatedDate: Clock.Timestamp,
    firstSeenBlock: nat,
    lastUpdatedBlock: nat,
    abstains: nat,
    drifts: nat)

  /** `ValidatorActor`: the records by operator address, and the operator
      address of each moniker. */
  datatype Registry = Registry(
    validators: map<string, ValidatorDetails>,
    moniker: map<string, string>)

  datatype PriceAbstain = PriceAbstain(height: nat, operatorAddress: string, denom: string, txhash: string)

  datatype PriceDrift = PriceDrift(
    height: nat,
    operatorAddress: string,
    denom: string,
    average: ObserverIntake.Decimal,
    submitted: ObserverIntake.Decimal,
    txhash: string)

  /** The staking registry's answer: the height it was read at and the list. */
  datatype StakingResult = StakingResult(height: nat, result: seq<Validator>)

  datatype FetchError = LcdUnreachable | QueryFailed

  /** A record first seen at `height`, `now`, with no abstains or drifts. */
  function FirstSight(v: Validator, height: nat, now: Clock.Timestamp): ValidatorDetails
  {
    ValidatorDetails(v, now, now, height, height, 0, 0)
  }

  function OperatorOf(v: Validator): string { v.operatorAddress }

  function MonikerOf(v: Validator): string { v.moniker }

  /** `create_from_validator_list`: one fresh record per operator address
      (a later entry with the same address replaces an earlier one), and
      each moniker mapped to the operator address of the last validator
      using it. */
  function CreateFromValidatorList(height: nat, list: seq<Validator>, now: Clock.Timestamp): (r: Registry)
    ensures r.validators.Keys == set v | v in list :: v.operatorAddress
    ensures forall k :: k in r.validators ==>
      exists i :: Index.LastWithKey(list, OperatorOf, i) && list[i].operatorAddress == k
        && r.validators[k].validator == list[i]
    ensures forall k :: k in r.validators ==>
      && r.validators[k].abstains == 0 && r.validators[k].drifts == 0
      && r.validators[k].firstSeenBlock == height && r.validators[k].lastUpdatedBlock == height
      && r.validators[k].firstSeenDate == now && r.validators[k].lastUpdatedDate == now
    ensures r.moniker.Keys == set v | v in list :: v.moniker
    ensures forall m :: m in r.moniker ==>
      exists i :: Index.LastWithKey(list, MonikerOf, i) && list[i].moniker == m
        && r.moniker[m] == list[i].operatorAddress
  {
    var validators := Index.IndexBy(list, OperatorOf, (v: Validator) => FirstSight(v, height, now));
    var moniker := Index.IndexBy(list, MonikerOf, OperatorOf);
    Registry(validators, moniker)
  }

  /** `ValidatorActor::create`: the registry built from the staking list,
      or the fetch error (which stops the actor from starting). */
  function Create(fetched: Result<StakingResult, FetchError>, now: Clock.Timestamp): (r: Result<Registry, FetchError>)
    ensures fetched.Err? ==> r == Err(fetched.error)
    ensures fetched.Ok? ==>
      r.Ok? && r.value.validators.Keys == set v | v in fetched.value.result :: v.operatorAddress
    ensures fetched.Ok? ==> r == Ok(CreateFromValidatorList(fetched.value.height, fetched.value.result, now))
  {
    match fetched
    case Err(e) => Err(e)
    case Ok(res) => Ok(CreateFromValidatorList(res.height, res.result, now))
  }

  /** The record after one more abstain reported at `height`. */
  function Abstained(d: ValidatorDetails, height: nat, now: Clock.Timestamp): ValidatorDetails
  {
    d.(abstains := d.abstains + 1, lastUpdatedBlock := height, lastUpdatedDate := now)
  }

  /** The record after one more drift reported at `height`. */
  function Drifted(d: ValidatorDetails, height: nat, now: Clock.Timestamp): ValidatorDetails
  {
    d.(drifts := d.drifts + 1, lastUpdatedBlock := height, lastUpdatedDate := now)
  }

  /** `Handler<MessagePriceAbstain>`: a known operator's abstain count goes
      up by one and its last update moves to the message's height; nothing
      else in the registry changes, and an unknown operator changes nothing. */
  function HandleAbstain(reg: Registry, msg: PriceAbstain, now: Clock.Timestamp): (r: Registry)
    ensures r.moniker == reg.moniker
    ensures r.validators.Keys == reg.validators.Keys
    ensures forall k :: k in reg.validators && k != msg.operatorAddress ==>
      r.validators[k] == reg.validators[k]
    ensures msg.operatorAddress !in reg.validators ==> r == reg
    ensures msg.operatorAddress in reg.validators ==>
      var before, after := reg.validators[msg.operatorAddress], r.validators[msg.operatorAddress];
      && after.abstains == before.abstains + 1
      && after.drifts == before.drifts
      && after.lastUpdatedBlock == msg.height && after.lastUpdatedDate == now
      && after.firstSeenBlock == before.firstSeenBlock && after.firstSeenDate == before.firstSeenDate
      && after.validator == before.validator
  {
    if msg.operatorAddress in reg.validators then
      var d := reg.validators[msg.operatorAddress];
      reg.(validators := reg.validators[msg.operatorAddress := Abstained(d, msg.height, now)])
    else
      reg
  }

  /** `Handler<MessagePriceDrift>`: as for abstains, with the drift count. */
  function HandleDrift(reg: Registry, msg: PriceDrift, now: Clock.Timestamp): (r: Registry)
    ensures r.moniker == reg.moniker
    ensures r.validators.Keys == reg.validators.Keys
    ensures forall k :: k in reg.validators && k != msg.operatorAddress ==>
      r.validators[k] == reg.validators[k]
    ensures msg.operatorAddress !in reg.validators ==> r == reg
    ensures msg.operatorAddress in reg.validators ==>
      var before, after := reg.validators[msg.operatorAddress], r.validators[msg.operatorAddress];
      && after.drifts == before.drifts + 1
      && after.abstains == before.abstains
      && after.lastUpdatedBlock == msg.height && after.lastUpdatedDate == now
      && after.firstSeenBlock == before.firstSeenBlock && after.firstSeenDate == before.firstSeenDate
      && after.validator == before.validator
  {
    if msg.operatorAddress in reg.validators then
      var d := reg.validators[msg.operatorAddress];
      reg.(validators := reg.validators[msg.operatorAddress := Drifted(d, msg.height, now)])
    else
      reg
  }

  /** Every record sits under its own operator address and every moniker
      points at a known operator. */
  ghost predicate Consistent(reg: Registry) {
    && (forall k :: k in reg.validators ==> reg.validators[k].validator.operatorAddress == k)
    && (forall m :: m in reg.moniker ==> reg.moniker[m] in reg.validators)
  }

  lemma CreateIsConsistent(height: nat, list: seq<Validator>, now: Clock.Timestamp)
    ensures Consistent(CreateFromValidatorList(height, list, now))
  {
    var r := CreateFromValidatorList(height, list, now);
    forall m | m in r.moniker
      ensures r.moniker[m] in r.validators
    {
      var i :| Index.LastWithKey(list, MonikerOf, i) && list[i].moniker == m
        && r.moniker[m] == list[i].operatorAddress;
      assert list[i] in list;
    }
  }

  lemma HandlersKeepConsistent(reg: Registry, a: PriceAbstain, d: PriceDrift, now: Clock.Timestamp)
    requires Consistent(reg)
    ensures Consistent(HandleAbstain(reg, a, now))
    ensures Consistent(HandleDrift(reg, d, now))
  {
  }

  /** How many of `msgs` name `operator`. */
  function AbstainsFor(msgs: seq<PriceAbstain>, operator: string): nat
  {
    if |msgs| == 0 then 0
    else AbstainsFor(msgs[..|msgs| - 1], operator) + (if msgs[|msgs| - 1].operatorAddress == operator then 1 else 0)
  }

  /** The actor handling `msgs` in delivery order. */
  function HandleAbstains(reg: Registry, msgs: seq<PriceAbstain>, now: Clock.Timestamp): Registry
  {
    if |msgs| == 0 then reg
    else HandleAbstain(HandleAbstains(reg, msgs[..|msgs| - 1], now), msgs[|msgs| - 1], now)
  }

  /** After a run of abstain messages each known record's abstain count has
      grown by exactly the number of messages naming it, its drift count
      and first sighting are untouched, and no record appears or vanishes. */
  lemma {:induction false} AbstainsAreCounted(reg: Registry, msgs: seq<PriceAbstain>, now: Clock.Timestamp, k: string)
    requires k in reg.validators
    ensures HandleAbstains(reg, msgs, now).validators.Keys == reg.validators.Keys
    ensures var before, after := reg.validators[k], HandleAbstains(reg, msgs, now).validators[k];
      && after.abstains == before.abstains + AbstainsFor(msgs, k)
      && after.drifts == before.drifts
      && after.firstSeenBlock == before.firstSeenBlock
      && after.validator == before.validator
  {
    if |msgs| > 0 {
      AbstainsAreCounted(reg, msgs[..|msgs| - 1], now, k);
    }
  }
}

=== FILE: validator_refresh.dfy ===
/** One round of the validator refresh task: join the staking validator
    list with the consensus (tendermint) validator set by public key and
    issue one `MessageValidator` per staking validator. The LCD queries are
    inputs; the consensus index is rebuilt from nothing every round. */
module ValidatorRefresh {
  import opened Wrappers
  import Index
  import ValidatorActor

  /** A member of the consensus validator set. */
  datatype TendermintValidator = TendermintValidator(
    address: string,
    pubKey: string,
    votingPower: int,
    proposerPriority: int)

  /** `MessageValidator`. */
  datatype MessageValidator = MessageValidator(
    height: nat,
    operatorAddress: string,
    validator: ValidatorActor.Validator,
    tendermint: Option<TendermintValidator>)

  datatype LcdError = ClientFailed | QueryFailed

  function PubKeyOf(v: TendermintValidator): string { v.pubKey }

  function Itself(v: TendermintValidator): TendermintValidator { v }

  /** The consensus set by public key, a later entry replacing an earlier one. */
  function ConsensusIndex(set_: seq<TendermintValidator>): (r: map<string, TendermintValidator>)
    ensures r.Keys == set v | v in set_ :: v.pubKey
    ensures forall k :: k in r ==>
      exists i :: Index.LastWithKey(set_, PubKeyOf, i) && r[k] == set_[i] && set_[i].pubKey == k
  {
    Index.IndexBy(set_, PubKeyOf, Itself)
  }

  /** The consensus record attached to `v`: the index entry under its
      consensus public key, if any. */
  function Link(index: map<string, TendermintValidator>, v: ValidatorActor.Validator): Option<TendermintValidator>
  {
    if v.consensusPubkey in index then Some(index[v.consensusPubkey]) else None
  }

  function Announce(height: nat, index: map<string, TendermintValidator>, vs: seq<ValidatorActor.Validator>): (r: seq<MessageValidator>)
    ensures |r| == |vs|
    ensures forall i :: 0 <= i < |vs| ==> r[i] == MessageValidator(height, vs[i].operatorAddress, vs[i], Link(index, vs[i]))
  {
    if |vs| == 0 then [] else Announce(height, index, vs[..|vs| - 1]) + [MessageValidator(height, vs[|vs| - 1].operatorAddress, vs[|vs| - 1], Link(index, vs[|vs| - 1]))]
  }

  /** The messages of one refresh round. No client, or no staking list,
      means no messages. Otherwise there is one message per staking
      validator, in list order, at the staking result's height; its consensus
      record is the last member of the consensus set with the validator's
      consensus public key, and absent when there is none or the consensus
      set could not be fetched. */
  function RefreshRound(
    client: Result<(), LcdError>,
    consensus: Result<seq<TendermintValidator>, LcdError>,
    staking: Result<ValidatorActor.StakingResult, LcdError>): (r: seq<MessageValidator>)
    ensures client.Err? || staking.Err? ==> r == []
    ensures client.Ok? && staking.Ok? ==> |r| == |staking.value.result|
    ensures client.Ok? && staking.Ok? ==> forall i :: 0 <= i < |r| ==>
      && r[i].height == staking.value.height
      && r[i].validator == staking.value.result[i]
      && r[i].operatorAddress == staking.value.result[i].operatorAddress
    ensures client.Ok? && staking.Ok? ==> forall i :: 0 <= i < |r| ==>
      (r[i].tendermint.None? <==>
         consensus.Err? || forall t :: t in consensus.value ==> t.pubKey != r[i].validator.consensusPubkey)
    ensures client.Ok? && staking.Ok? ==> forall i :: 0 <= i < |r| && r[i].tendermint.Some? ==>
      && consensus.Ok?
      && exists j :: Index.LastWithKey(consensus.value, PubKeyOf, j)
           && consensus.value[j] == r[i].tendermint.value
           && consensus.value[j].pubKey == r[i].validator.consensusPubkey
  {
    match client
    case Err(_) => []
    case Ok(_) =>
      var index := match consensus case Ok(set_) => ConsensusIndex(set_) case Err(_) => map[];
      match staking
      case Err(_) => []
      case Ok(res) => Announce(res.height, index, res.result)
  }

  /** A failed consensus-set fetch still announces every staking validator,
      none of them linked. */
  lemma ConsensusFailureStillAnnounces(staking: ValidatorActor.StakingResult, e: LcdError)
    ensures var r := RefreshRound(Ok(()), Err(e), Ok(staking));
      |r| == |staking.result| && forall i :: 0 <= i < |r| ==> r[i].tendermint == None
  {
  }
}

=== FILE: versioned.dfy ===
/** The checkpoint envelope shared by both state schemas: a state is saved
    as a JSON document whose single top-level tag names its schema
    version, and restored by matching that tag. The JSON text itself is not
    modelled: a document is its tag and the state it holds, or a file that
    is missing or does not parse. */
module Versioned {
  import opened Wrappers

  /** `StateVersion`: the only version so far is `StateVersion1`. */
  datatype StateVersion<S> = StateVersion1(state: S)

  /** What the checkpoint file holds when it is read back. */
  datatype CheckpointFile<S> = Missing | Unparseable | Document(tag: string, body: S)

  datatype RestoreError = FileMissing | BadJson | UnknownVersion(tag: string)

  const Version1Tag: string := "StateVersion1"

  /** `save`: the state, unchanged, under the `StateVersion1` tag. */
  function Save<S>(s: S): (f: CheckpointFile<S>)
    ensures f.Document? && f.tag == Version1Tag && f.body == s
  {
    Document(Version1Tag, s)
  }

  /** `restore`: a missing or unparseable file, or an unknown tag, is an
      error; otherwise the decoded `StateVersion1`. */
  function Restore<S>(f: CheckpointFile<S>): (r: Result<StateVersion<S>, RestoreError>)
    ensures r.Ok? <==> f.Document? && f.tag == Version1Tag
    ensures r.Ok? ==> r.value == StateVersion1(f.body)
    ensures f.Missing? ==> r == Err(FileMissing)
    ensures f.Unparseable? ==> r == Err(BadJson)
  {
    match f
    case Missing => Err(FileMissing)
    case Unparseable => Err(BadJson)
    case Document(tag, body) =>
      if tag == Version1Tag then Ok(StateVersion1(body)) else Err(UnknownVersion(tag))
  }

  /** Restoring what was saved gives back `StateVersion1` of the saved state. */
  lemma RestoreAfterSave<S>(s: S)
    ensures Restore(Save(s)) == Ok(StateVersion1(s))
  {
  }

  /** Only a saved document restores, and it restores to what was saved. */
  lemma RestoredWasSaved<S>(f: CheckpointFile<S>, v: StateVersion<S>)
    requires Restore(f) == Ok(v)
    ensures f == Save(v.state)
  {
  }

  /** The start-up fallback: the restored state, or `fallback` when the file
      cannot be restored. */
  function RestoreOr<S>(f: CheckpointFile<S>, fallback: S): (s: S)
    ensures Restore(f).Ok? ==> s == Restore(f).value.state
    ensures Restore(f).Err? ==> s == fallback
  {
    match Restore(f)
    case Ok(StateVersion1(restored)) => restored
    case Err(_) => fallback
  }
}

=== FILE: wrappers.dfy ===
/** Failure-carrying datatypes used throughout the model: Rust's `Option` and
    `Result` (anyhow errors are reduced to a small per-module error type). */
module Wrappers {

  datatype Option<+T> = None | Some(value: T) {

    /** `unwrap_or`: the carried value, or `default` when there is none. */
    function GetOr(default: T): T {
      match this
      case Some(v) => v
      case None => default
    }
  }

  datatype Result<+T, +E> = Ok(value: T) | Err(error: E) {

    /** `.ok()`: forget the error. */
    function ToOption(): Option<T> {
      match this
      case Ok(v) => Some(v)
      case Err(_) => None
    }
  }
}
